=== FILE: README.md ===
# Opto-Track progress engine in Dafny

Opto-Track is a browser study tracker for optometry students. Each subject
holds chapters, and a chapter has a count of repetitions done against a
repetition target. The student presses "+" and "-" on a chapter, adds and
deletes chapters, records assessment marks and schedules exams. Behind the
pages there is a small progress and gamification engine:

- a reducer that stores an edited subject, pays 10 experience per repetition
  gained and logs a study session when the repetitions rose;
- an evaluator that stamps achievements whose conditions now hold and pays a
  flat 50 experience for the pass;
- the editor primitives that build the edited subject;
- the dashboard's derived figures: completion counts and rate, the "focus
  required" list, the level, and each subject's mastery percentage;
- the seed state used when nothing is stored;
- the progress bar's clamp.

This project states that engine as pure Dafny functions over immutable
datatypes. The clock reading (`now`), generated ids, prompt answers and
parsed numbers are parameters.

Modules follow the source files:

| module | file | source |
|---|---|---|
| `Types` | types.dfy | types.ts, plus the repetition and completion tallies the views share |
| `Constants` | constants.dfy | constants.ts |
| `ProgressBar` | progress_bar.dfy | components/ProgressBar.tsx |
| `SubjectDetails` | subject_details.dfy | components/SubjectDetails.tsx |
| `App` | app.dfy | App.tsx (reducer and evaluator) |
| `Dashboard` | dashboard.dfy | components/Dashboard.tsx |
| `Storage` | storage.dfy | services/storage.ts |
| `Scenarios` | scenarios.dfy | end-to-end runs of edit, then reducer, then evaluator |

The model follows the code as written, including where the code differs
from what its own texts announce:

- "+" has no ceiling at 7 repetitions, although the `repetition_king`
  template reads "Reach the maximum of 7 repetitions" (constants.ts:19) and
  the evaluator's comment speaks of a new maximum of 7 (App.tsx:27). Nothing
  in the increment enforces it (`Scenarios.NoCeilingAtSeven`).
- The repetition target keeps negative numbers, so `overachiever` can hold
  for a brand-new chapter (`App.OverachieverReachable`).
- The achievement reward is 50 per evaluator pass, not 50 per achievement
  (`App.FlatRewardPerPass`).
- `consistent_learner` has no condition and never unlocks
  (`App.ConsistentLearnerNeverUnlocks`).
- An update for an id that no subject carries leaves the subjects alone but
  still earns experience and a log entry (`App.UpdateAbsentId`).
- From the seed, adding one chapter with target 5 and pressing "+" five
  times gives 150 experience: 50 for the five repetitions, 50 for the pass
  that unlocks `first_step` on the first press, and 50 for the pass that
  unlocks `subject_master` on the fifth (`Scenarios.SeedFiveRepetitions`).
- An achievement counts as unlocked when its `unlockedAt` is truthy, so an
  empty stamp reads as locked (`Types.IsUnlocked`).

## Model

| member | source | states |
|---|---|---|
| Types.Truthy | App.tsx:21 | Definition, no contract: JavaScript truthiness of a string or `null`; only a present, non-empty string is truthy. The same test guards the prompt answers and the stored text |
| Types.IsUnlocked | App.tsx:21 | Definition, no contract: an achievement is unlocked when its `unlockedAt` is truthy, so an empty stamp reads as locked |
| Types.IsDone | components/SubjectDetails.tsx:161 | Definition, no contract: a chapter is done once its repetitions reach its target |
| Types.ChapterReps | App.tsx:53-54 | Definition, no contract: `chapters.reduce((sum, c) => sum + c.currentReps, 0)`, the subject's repetition sum behind `oldReps` and `newReps` |
| Types.DoneCount | components/Dashboard.tsx:198 | Definition, no contract: the length of the chapters filtered to those with reps >= target |
| Types.TotalReps | App.tsx:24 | Definition, no contract: the nested `reduce` summing every chapter's repetitions over all subjects |
| Types.ChapterRepsAppend | App.tsx:53-54 | The repetition sum that the reducer computes with `reduce` distributes over concatenation |
| Types.ChapterRepsPositive | App.tsx:24-26 | With non-negative counts, the repetition sum is non-negative, and it is at least 1 exactly when some chapter has at least one repetition |
| Types.DoneCountBounds | components/Dashboard.tsx:198-200 | The number of done chapters is at most the number of chapters; it equals it exactly when every chapter is done, and it is 0 exactly when none is |
| Types.DoneTotalBounds | components/Dashboard.tsx:18-24 | Over all subjects, completed chapters never exceed chapters |
| Constants.InitialSubjectsShape | constants.ts:2-15 | The subject catalog has 12 entries with ids "1".."12" in order, pairwise distinct |
| Constants.AchievementTemplatesShape | constants.ts:17-23 | There are five templates with pairwise-distinct ids, none carries a stamp so all are locked, and the ids are the four the evaluator tests followed by `consistent_learner` |
| ProgressBar.Clamp | components/ProgressBar.tsx:18 | The clamped progress lies in [0,100]; inputs already in range pass unchanged; below 0 gives 0 and above 100 gives 100 |
| ProgressBar.ClampIdempotentMonotone | components/ProgressBar.tsx:18 | Clamping twice equals clamping once, and clamping preserves order |
| ProgressBar.Height | components/ProgressBar.tsx:15-17 | "sm" gives h-1.5; "md" or an omitted size gives h-2.5; any other size gives h-4 |
| ProgressBar.HeightRange | components/ProgressBar.tsx:15-17 | Only three heights occur, and omitting the size is the same as passing "md" |
| SubjectDetails.Trim | components/SubjectDetails.tsx:19 | Definition, no contract: `trim()` strips leading, then trailing ECMAScript whitespace |
| SubjectDetails.TrimStart | components/SubjectDetails.tsx:19 | Stripping leading whitespace leaves a suffix of the input that is empty or starts with a non-whitespace character |
| SubjectDetails.TrimEnd | components/SubjectDetails.tsx:19 | Stripping trailing whitespace leaves a prefix of the input that is empty or ends with a non-whitespace character |
| SubjectDetails.TrimStartEmptyIffBlank | components/SubjectDetails.tsx:19 | Stripping leading whitespace empties a string exactly when the string is all whitespace |
| SubjectDetails.TrimStartBlankPrefix | components/SubjectDetails.tsx:19 | Everything that leading trimming removes is whitespace |
| SubjectDetails.TrimEndBlankSuffix | components/SubjectDetails.tsx:19 | Everything that trailing trimming removes is whitespace |
| SubjectDetails.TrimEmptyIffBlank | components/SubjectDetails.tsx:19 | `trim()` gives the empty string exactly when the name is all whitespace, the empty name included |
| SubjectDetails.AddChapter | components/SubjectDetails.tsx:18-32 | No update is issued exactly when the name is blank. Otherwise exactly one chapter is appended at the end, with the given id, name and target, zero repetitions and no study stamp; the existing chapters and the other subject fields are untouched |
| SubjectDetails.AddChapterKeepsReps | components/SubjectDetails.tsx:20-28 | Adding a chapter leaves the subject's repetition total unchanged |
| SubjectDetails.BumpRep | components/SubjectDetails.tsx:38 | Definition, no contract: the `map` step, which sets max(0, reps + delta) and stamps now on a matching chapter and keeps any other |
| SubjectDetails.UpdateRep | components/SubjectDetails.tsx:34-41 | Only chapters: count, order, ids, names and targets are kept. A non-matching chapter is unchanged. A matching chapter gets max(0, reps + delta) repetitions, with no upper ceiling, and is stamped with now |
| SubjectDetails.ChapterRepsShift | components/SubjectDetails.tsx:38 | If every chapter carrying the id gains k repetitions and the others keep theirs, the total gains k times the number of such chapters |
| SubjectDetails.UpdateRepRaisesTotal | components/SubjectDetails.tsx:38 | With non-negative counts, a non-negative delta raises the subject's total by delta for each chapter carrying the id |
| SubjectDetails.IncrementAddsOne | components/SubjectDetails.tsx:38 | With non-negative counts and the id occurring once, "+" raises the subject's total by exactly 1 |
| SubjectDetails.DecrementAtZero | components/SubjectDetails.tsx:38 | "-" on chapters already at 0 leaves the total unchanged |
| SubjectDetails.UpdateRepUnknownId | components/SubjectDetails.tsx:35-40 | An id that no chapter carries gives back the subject unchanged |
| SubjectDetails.Without | components/SubjectDetails.tsx:69 | Exactly the chapters with a different id survive, and the count drops by the number of chapters carrying the id |
| SubjectDetails.WithoutAppend | components/SubjectDetails.tsx:69 | The filter works piecewise over concatenation, so survivors keep their relative order |
| SubjectDetails.WithoutRepsAtMost | components/SubjectDetails.tsx:69 | With non-negative counts, deleting never raises the repetition total |
| SubjectDetails.WithoutNoMatch | components/SubjectDetails.tsx:69 | When no chapter carries the id, the filter returns the list unchanged |
| SubjectDetails.DeleteChapter | components/SubjectDetails.tsx:68-70 | Every chapter with the id is removed and every other chapter stays, the count drops by the number of chapters with the id, and the other fields are untouched |
| SubjectDetails.DeleteAbsentId | components/SubjectDetails.tsx:68-70 | Deleting an id that no chapter carries gives back the subject unchanged |
| SubjectDetails.AddAssessment | components/SubjectDetails.tsx:43-56 | An assessment is appended exactly when mark, maximum and name are all non-empty. It goes at the end with the given id, name and parsed numbers, and nothing else changes |
| SubjectDetails.AddExam | components/SubjectDetails.tsx:58-66 | An exam is appended exactly when title and date are non-empty. It goes at the end, and an empty or cancelled goal becomes "A" |
| SubjectDetails.TargetFromInput | components/SubjectDetails.tsx:142 | The target is never 0: a zero or NaN parse gives 5, and every other integer, negatives included, is kept |
| App.FindIndex | App.tsx:52 | `find` by id returns the first subject carrying the id, or reports that none does |
| App.OldReps | App.tsx:52-53 | Definition, no contract: the repetitions of the first stored subject with the id, or 0 when none has it |
| App.XpGained | App.tsx:56 | The experience gained is non-negative and a multiple of 10. It is positive exactly when the repetitions rose, and then it is 10 per repetition gained |
| App.ReplaceSubject | App.tsx:50 | Length and order are kept: every subject with the updated id is replaced and every other one is identical |
| App.UpdateSubject | App.tsx:48-77 | The achievements are untouched and subjects are replaced by id. Experience grows by max(0, (new - old) * 10), with old taken as 0 for an absent id, so it never drops. The log grows by exactly one entry iff the repetitions rose, earlier entries are kept, and the new entry is (now, updated id, updated name) |
| App.UpdateAbsentId | App.tsx:50-56 | With an absent id the subjects are unchanged, yet the experience is max(0, newReps*10) and a log entry is added when newReps > 0 |
| App.IncrementEarnsTenXp | App.tsx:48-77 | "+" on a chapter whose id occurs once earns exactly 10 experience and logs one session for that subject |
| App.ChapterlessEditEarnsNothing | App.tsx:48-77 | Storing a subject whose chapters did not change, such as a new mark or exam, earns nothing and logs nothing |
| App.DeleteEarnsNothing | App.tsx:48-77 | With non-negative counts, storing a subject after a chapter deletion earns nothing and logs nothing |
| App.Unlocks | App.tsx:26-30 | Definition, no contract: `first_step` needs a total of at least 1, `repetition_king` a chapter at 7 or more, `subject_master` a subject with chapters all done, `overachiever` a chapter strictly past its target; any other id never unlocks |
| App.EvaluateEntry | App.tsx:20-37 | Definition, no contract: the `map` step, which keeps an unlocked entry, stamps a locked one with now when its condition holds, and keeps it otherwise |
| App.AnyUnlocks | App.tsx:19-33 | Definition, no contract: the `unlockedAny` flag, set when some locked entry's condition holds |
| App.CheckAchievements | App.tsx:18-46 | Subjects and log are unchanged and the achievement list keeps its length and order. Unlocked entries are untouched; a locked entry is stamped with now exactly when its condition holds. Experience rises by 50 iff something unlocked, otherwise the state is returned as it was |
| App.CheckUnlockedIff | App.tsx:20-35 | With a non-empty stamp, an entry is unlocked after the pass exactly when it was unlocked before or its condition held |
| App.CheckIdempotent | App.tsx:18-46 | A second pass, at any clock reading, changes nothing: it unlocks nothing and pays nothing |
| App.FlatRewardPerPass | App.tsx:39-44 | Two entries unlocking in the same pass still earn only 50 |
| App.ConsistentLearnerNeverUnlocks | App.tsx:26-30 | The `consistent_learner` entry is never changed by a pass |
| App.FirstStepIffStudied | App.tsx:24-26 | With non-negative counts, `first_step`'s condition holds exactly when some chapter has at least one repetition |
| App.OverachieverReachable | components/SubjectDetails.tsx:142 | A chapter added with a target typed as -1 is already past its target, so `overachiever`'s condition holds |
| App.Step | App.tsx:13-16 | Reducer then evaluator: experience never drops, the log grows by at most one entry and keeps its prefix, and unlocked achievements stay unlocked |
| Dashboard.Percent | components/Dashboard.tsx:26 | done/total*100 when there are chapters and 0 without; it lies in [0,100], is 100 exactly when all are done, and 0 exactly when none is |
| Dashboard.ComputeStats | components/Dashboard.tsx:13-28 | The nested loops count all chapters, done chapters and repetitions, with 0 <= done <= total. The rate is done/total*100, or 0 without chapters, and it lies in [0,100] |
| Dashboard.Unfinished | components/Dashboard.tsx:34-41 | The rows of one subject are exactly the items of its chapters with reps < target, one per such chapter: the length is the chapter count minus the done count |
| Dashboard.Candidates | components/Dashboard.tsx:32-43 | The candidate rows are exactly the items of the unfinished chapters of all subjects, and there are as many rows as chapters minus done chapters, so one per unfinished chapter |
| Dashboard.Item | components/Dashboard.tsx:36-40 | Definition, no contract: the pushed row of chapter name, owning subject and progress |
| Dashboard.Progress | components/Dashboard.tsx:39 | Definition, no contract: (reps / target) * 100, read as 0 for a zero target |
| Dashboard.UnfinishedAppend | components/Dashboard.tsx:34-41 | The rows of a subject's chapters distribute over concatenation, so with the one-chapter case they follow the chapters one for one, in order |
| Dashboard.CandidatesAppend | components/Dashboard.tsx:32-43 | The candidate rows distribute over concatenation of the subjects, so they are the subjects' rows in subject order |
| Dashboard.Insert | components/Dashboard.tsx:44 | Inserting into a sorted list gives a sorted list that is the old list plus the new row, as a multiset |
| Dashboard.SortedCons | components/Dashboard.tsx:44 | A row no further along than every row of a sorted list can go in front and keep it sorted |
| Dashboard.HeadBelow | components/Dashboard.tsx:44 | The head of a sorted list is no further along than any row drawn from its tail or ahead of it |
| Dashboard.SortByProgress | components/Dashboard.tsx:44 | The sort returns a permutation of its input, ascending by progress |
| Dashboard.SortedCut | components/Dashboard.tsx:44 | Keeping a prefix of a sorted list leaves no dropped row behind a kept one |
| Dashboard.CutMultiset | components/Dashboard.tsx:44 | What `slice` drops is, as a multiset, exactly the rest of the list |
| Dashboard.Lowest | components/Dashboard.tsx:44 | Sort then `slice(0, n)`: min(n, length) rows, ascending, drawn from the input, none of the dropped rows strictly behind a kept one |
| Dashboard.FocusRequired | components/Dashboard.tsx:31-45 | At most four rows, ascending by progress and drawn from the unfinished chapters; no unfinished chapter left out has strictly less progress than one kept |
| Dashboard.FocusOnlyUnfinished | components/Dashboard.tsx:35 | Every row of the list is an unfinished chapter of some subject |
| Dashboard.Level | components/Dashboard.tsx:89 | The level is the thousand-point band containing the experience, plus one, so it is at least 1 for non-negative experience |
| Dashboard.LevelMonotone | components/Dashboard.tsx:89 | More experience never gives a lower level |
| Dashboard.Mastery | components/Dashboard.tsx:197-200 | Mastery is 0 without chapters and otherwise done chapters / chapters * 100; it lies in [0,100], is 100 exactly when the subject has chapters and all are done, and is 0 exactly when none is |
| Dashboard.SubjectMasterIffFullMastery | App.tsx:29 | `subject_master`'s condition holds exactly when some subject's mastery bar is full |
| Storage.SeedSubject | services/storage.ts:27-32 | Definition, no contract: a catalog entry with empty chapters, assessments and exams |
| Storage.ToStored | services/storage.ts:7-9 | Definition, no contract: the object `saveState` serialises, every field kept and the log present |
| Storage.SeedState | services/storage.ts:26-37 | Seed subjects follow the catalog in order with the same id, name and colour, with no chapters, assessments or exams. The achievements are the templates, experience is 0 and the log is empty |
| Storage.LoadState | services/storage.ts:11-37 | Stored text that is missing or empty, or that fails to parse, gives the seed. A parsed state keeps every field, and a missing log reads as empty |
| Storage.LoadAfterSave | services/storage.ts:7-19 | Loading what was saved gives back the saved state, provided the parser reads the saved text back to the saved object |
| Storage.LoadLegacySave | services/storage.ts:15-19 | A save without a study log loads with an empty log and everything else as saved |
| Storage.SeedWellFormed | services/storage.ts:26-33 | The seed's subject ids are pairwise distinct and every seed achievement is locked |
| Storage.SeedRepsZero | services/storage.ts:26-32 | Subjects without chapters have no repetitions |
| Storage.SeedIsQuiescent | services/storage.ts:26-37 | The first evaluator pass over the seed changes nothing |
| Scenarios.NoCeilingAtSeven | components/SubjectDetails.tsx:38 | "+" at 7 repetitions gives 8. `repetition_king` unlocks, and the press earns 10 plus the flat 50 |
| Scenarios.MasteryIsNotRevoked | App.tsx:21 | Adding an unfinished chapter to a mastered subject does not relock `subject_master` |
| Scenarios.ChapterNameNotBlank | components/SubjectDetails.tsx:19 | The run's chapter name passes the blank-name test |
| Scenarios.TotalRepsFirstOnly | App.tsx:24 | When only the first subject has chapters, the total is that subject's repetitions |
| Scenarios.UnlocksInShape | App.tsx:26-30 | With one chapter of target 5 at n repetitions, each condition holds exactly from its threshold: first_step at 1, subject_master at 5, overachiever at 6, repetition_king at 7, and never for other ids |
| Scenarios.PressReducer | App.tsx:48-77 | One "+" on that chapter earns 10 and one log entry, and leaves the achievements alone |
| Scenarios.PressEvaluator | App.tsx:18-46 | After that press the entries whose threshold was just reached unlock, paid 50 once |
| Scenarios.PressStep | App.tsx:13-16 | One press moves the run from n to n+1 repetitions with the matching achievements, log and experience |
| Scenarios.IterateRun | App.tsx:13-16 | n presses give n more repetitions and n more sessions, and pay 10 per press plus 50 per press that reached a threshold |
| Scenarios.PressAdvances | App.tsx:13-16 | Every press advances the run by one step |
| Scenarios.ExpectedAtZero | App.tsx:26-30 | Before any press, no achievement of the run has reached its threshold |
| Scenarios.AddedAtZero | components/SubjectDetails.tsx:18-32 | Adding the run's chapter to an empty first subject gives one chapter at 0 repetitions |
| Scenarios.StoreFirstAtZero | App.tsx:48-77 | Storing that subject earns nothing and logs nothing |
| Scenarios.AddChapterReducer | App.tsx:48-77 | Adding the chapter through the reducer earns nothing and logs nothing |
| Scenarios.QuietAtZero | App.tsx:39-45 | With the chapter at 0 repetitions, the evaluator changes nothing |
| Scenarios.AddChapterStep | App.tsx:13-16 | The first step of the run, adding the chapter, unlocks and earns nothing |
| Scenarios.PressesFromZero | App.tsx:13-16 | n presses from zero give n repetitions, n sessions and 10n + 50·hits experience |
| Scenarios.RepetitionRun | App.tsx:13-77 | From a fresh state, adding the chapter and pressing n times gives n sessions and 10n + 50·hits experience |
| Scenarios.TemplateHits | constants.ts:17-23 | With the five templates, two of presses 1..5 reach a threshold: first_step and subject_master |
| Scenarios.SeedFiveRepetitions | services/storage.ts:26-37 | From the seed, one chapter with target 5 and five presses give five sessions and 150 experience |

## Left out

- Rendering (JSX, CSS classes, charts, navigation) is presentation only.
- The browser store, JSON encoding and the backup download are I/O. Stored
  text is an `Option<string>` and the parser is a function parameter that
  answers `None` on failure.
- React scheduling is not modelled. Each handler is one pure step over one
  snapshot, so the effect ordering and the stale read of `state` inside the
  evaluator are out. `App.Step` composes the reducer and one evaluator pass;
  `App.CheckIdempotent` shows that the pass the evaluator's own update
  triggers is a no-op.
- Anything that reads the wall clock or formats dates is out: upcoming exams,
  the weekly activity chart, days left, and the exam roadmap's date sort.
  Timestamps are opaque strings supplied by the caller. One clock reading
  serves a whole call: the source reads the clock afresh for each unlocked
  achievement (App.tsx:34), each matching chapter
  (components/SubjectDetails.tsx:38) and the session (App.tsx:62), so stamps
  made in one call may differ there, while the model gives them all `now`.
- `prompt()`, `parseFloat`, `parseInt` and `toFixed` are out: prompt answers
  are `Option<string>` and parsed numbers are parameters. `TargetFromInput`
  takes the `parseInt` result, with `None` for NaN.
- `Date.now()` ids are parameters.
- The parsed save is taken to hold every typed field. `loadState` falls back
  to the seed when the text is missing or empty, when `JSON.parse` throws, or
  when the text parses to `null` (reading `studyLog` off `null` throws inside
  the same `try`); the parser parameter answers `None` for the last two. It
  does not check that `subjects`, `achievements` and `experience` are present
  or well typed, so a save such as `{}` loads as a state without subjects.
  The typed `StoredState` cannot express such a save, and the parser
  parameter is assumed to give all typed fields or `None`.
- The `theme` field that `loadState` adds is cosmetic and not part of the
  typed state.
- Numbers are unbounded `int` and exact `real`; floating point is not
  modelled.
- Dashboard.Progress: a zero target is read as progress 0, because exact reals
  have no NaN or Infinity. A zero-target chapter reaches the list only when
  its repetitions are negative (components/Dashboard.tsx:35). In the source
  its progress is then -Infinity, so the comparator puts it ahead of every
  other row. The model ranks it at 0, which places it behind any row with
  negative progress.
- Dashboard.SortByProgress: stability of the JavaScript sort is not stated,
  only sortedness and permutation.

=== FILE: app.dfy ===
/**
  The two state transitions of the application shell: the subject-update
  reducer, which replaces one subject and derives experience and a study-log
  entry from the change in repetitions, and the achievement evaluator, which
  unlocks achievements whose conditions hold and pays a flat reward per pass.
  Both are pure steps over one state snapshot; the clock reading is `now`.
 */
module App {
  import opened Types
  import opened Constants
  import SubjectDetails

  /** Experience per repetition gained. */
  const XP_PER_REP := 10
  /** Experience paid once for a pass of the evaluator that unlocks anything. */
  const ACHIEVEMENT_XP := 50
  /** Repetitions of one chapter that unlock `repetition_king`. */
  const KING_REPS := 7

  /** `Array.prototype.find` by id, as an index: the first subject carrying
      the id, or `|subjects|` when none does. */
  function FindIndex(subjects: seq<Subject>, id: string): (k: nat)
    ensures k <= |subjects|
    ensures forall j :: 0 <= j < k ==> subjects[j].id != id
    ensures k < |subjects| ==> subjects[k].id == id
  {
    if |subjects| == 0 then 0
    else if subjects[0].id == id then 0
    else 1 + FindIndex(subjects[1..], id)
  }

  /** `oldSubject?.chapters.reduce(...) || 0`: the repetitions of the first
      subject with the id, or 0 when there is none. */
  function OldReps(subjects: seq<Subject>, id: string): int {
    var k := FindIndex(subjects, id);
    if k < |subjects| then SubjectReps(subjects[k]) else 0
  }

  /** `Math.max(0, (newReps - oldReps) * 10)`. */
  function XpGained(oldReps: int, newReps: int): (xp: int)
    ensures xp >= 0
    ensures xp > 0 <==> newReps > oldReps
    ensures newReps > oldReps ==> xp == (newReps - oldReps) * XP_PER_REP
    ensures xp % XP_PER_REP == 0
  {
    Max(0, (newReps - oldReps) * XP_PER_REP)
  }

  /** `prev.subjects.map(s => s.id === updated.id ? updated : s)`. */
  function ReplaceSubject(subjects: seq<Subject>, updated: Subject): (r: seq<Subject>)
    ensures |r| == |subjects|
    ensures forall i :: 0 <= i < |r| && subjects[i].id == updated.id ==> r[i] == updated
    ensures forall i :: 0 <= i < |r| && subjects[i].id != updated.id ==> r[i] == subjects[i]
  {
    seq(|subjects|, i requires 0 <= i < |subjects| =>
      if subjects[i].id == updated.id then updated else subjects[i])
  }

  /** The reducer behind `handleUpdateSubject`. Every subject with the
      updated id is replaced in place; experience grows by ten per repetition
      gained (never shrinks); one session stamped `now` is appended exactly
      when the repetitions rose. */
  function UpdateSubject(state: AppState, updated: Subject, now: string): (r: AppState)
    ensures r.achievements == state.achievements
    ensures r.subjects == ReplaceSubject(state.subjects, updated)
    ensures r.experience
         == state.experience + XpGained(OldReps(state.subjects, updated.id), SubjectReps(updated))
    ensures r.experience >= state.experience
    ensures |r.studyLog| == |state.studyLog| + (if SubjectReps(updated) > OldReps(state.subjects, updated.id) then 1 else 0)
    ensures r.studyLog[..|state.studyLog|] == state.studyLog
    ensures |r.studyLog| > |state.studyLog| ==>
      r.studyLog[|state.studyLog|] == StudySession(now, updated.id, updated.name)
  {
    var oldReps := OldReps(state.subjects, updated.id);
    var newReps := SubjectReps(updated);
    var log := if newReps > oldReps then state.studyLog + [StudySession(now, updated.id, updated.name)]
               else state.studyLog;
    state.(subjects := ReplaceSubject(state.subjects, updated),
           experience := state.experience + XpGained(oldReps, newReps),
           studyLog := log)
  }

  /** An update whose id no subject carries leaves the subjects alone, yet
      the missing subject counts as 0 repetitions: every repetition of the
      update earns experience and a log entry. */
  lemma UpdateAbsentId(state: AppState, updated: Subject, now: string)
    requires forall i :: 0 <= i < |state.subjects| ==> state.subjects[i].id != updated.id
    ensures UpdateSubject(state, updated, now).subjects == state.subjects
    ensures UpdateSubject(state, updated, now).experience
         == state.experience + Max(0, SubjectReps(updated) * XP_PER_REP)
    ensures SubjectReps(updated) > 0 ==>
      UpdateSubject(state, updated, now).studyLog
        == state.studyLog + [StudySession(now, updated.id, updated.name)]
  {
    var r := UpdateSubject(state, updated, now);
    assert r.subjects == state.subjects;
  }

  /** Pressing "+" on a chapter (of a subject found first by its id) earns
      exactly ten experience and logs one session for that subject. */
  lemma IncrementEarnsTenXp(state: AppState, k: nat, chapterId: string, stamp: string, now: string)
    requires k < |state.subjects|
    requires forall j :: 0 <= j < k ==> state.subjects[j].id != state.subjects[k].id
    requires CountId(state.subjects[k].chapters, chapterId) == 1
    requires forall i :: 0 <= i < |state.subjects[k].chapters| ==> state.subjects[k].chapters[i].currentReps >= 0
    ensures var updated := SubjectDetails.UpdateRep(state.subjects[k], chapterId, 1, stamp);
            var r := UpdateSubject(state, updated, now);
            && r.experience == state.experience + XP_PER_REP
            && r.studyLog == state.studyLog + [StudySession(now, state.subjects[k].id, state.subjects[k].name)]
            && r.subjects[k] == updated
  {
    var s := state.subjects[k];
    var updated := SubjectDetails.UpdateRep(s, chapterId, 1, stamp);
    SubjectDetails.IncrementAddsOne(s, chapterId, stamp);
    var f := FindIndex(state.subjects, updated.id);
    assert f == k;
    var r := UpdateSubject(state, updated, now);
    assert r.studyLog == r.studyLog[..|state.studyLog|] + [r.studyLog[|state.studyLog|]];
  }

  /** An edit that leaves the chapters alone (a new mark, a new exam) earns
      nothing and logs nothing; it only stores the subject. */
  lemma ChapterlessEditEarnsNothing(state: AppState, k: nat, updated: Subject, now: string)
    requires k < |state.subjects|
    requires forall j :: 0 <= j < k ==> state.subjects[j].id != state.subjects[k].id
    requires updated.id == state.subjects[k].id && updated.chapters == state.subjects[k].chapters
    ensures var r := UpdateSubject(state, updated, now);
            && r.experience == state.experience
            && r.studyLog == state.studyLog
            && r.subjects[k] == updated
  {
    assert FindIndex(state.subjects, updated.id) == k;
    var r := UpdateSubject(state, updated, now);
    assert r.studyLog == r.studyLog[..|state.studyLog|];
  }

  /** Deleting a chapter (of a subject found first by its id, with
      non-negative counts) earns nothing and logs nothing. */
  lemma DeleteEarnsNothing(state: AppState, k: nat, chapterId: string, now: string)
    requires k < |state.subjects|
    requires forall j :: 0 <= j < k ==> state.subjects[j].id != state.subjects[k].id
    requires forall i :: 0 <= i < |state.subjects[k].chapters| ==> state.subjects[k].chapters[i].currentReps >= 0
    ensures var updated := SubjectDetails.DeleteChapter(state.subjects[k], chapterId);
            var r := UpdateSubject(state, updated, now);
            && r.experience == state.experience
            && r.studyLog == state.studyLog
            && r.subjects[k] == updated
  {
    var updated := SubjectDetails.DeleteChapter(state.subjects[k], chapterId);
    SubjectDetails.WithoutRepsAtMost(state.subjects[k].chapters, chapterId);
    assert FindIndex(state.subjects, updated.id) == k;
    var r := UpdateSubject(state, updated, now);
    assert r.studyLog == r.studyLog[..|state.studyLog|];
  }

  // ---- the achievement evaluator ------------------------------------------

  /** Some chapter of some subject has at least `n` repetitions. */
  predicate SomeChapterReaches(subjects: seq<Subject>, n: int) {
    exists i, j :: 0 <= i < |subjects| && 0 <= j < |subjects[i].chapters|
      && subjects[i].chapters[j].currentReps >= n
  }

  /** Some subject has chapters and all of them are done. */
  predicate SomeSubjectMastered(subjects: seq<Subject>) {
    exists i :: 0 <= i < |subjects| && |subjects[i].chapters| > 0
      && forall j :: 0 <= j < |subjects[i].chapters| ==> IsDone(subjects[i].chapters[j])
  }

  /** Some chapter has strictly more repetitions than its target. */
  predicate SomeChapterExceeds(subjects: seq<Subject>) {
    exists i, j :: 0 <= i < |subjects| && 0 <= j < |subjects[i].chapters|
      && subjects[i].chapters[j].currentReps > subjects[i].chapters[j].targetReps
  }

  /** The unlock condition tested for an achievement id. No condition is
      written for any other id, `consistent_learner` included. */
  predicate Unlocks(id: string, subjects: seq<Subject>) {
    if id == FIRST_STEP then TotalReps(subjects) >= 1
    else if id == REPETITION_KING then SomeChapterReaches(subjects, KING_REPS)
    else if id == SUBJECT_MASTER then SomeSubjectMastered(subjects)
    else if id == OVERACHIEVER then SomeChapterExceeds(subjects)
    else false
  }

  /** The mapping step for one achievement. */
  function EvaluateEntry(a: Achievement, subjects: seq<Subject>, now: string): Achievement {
    if IsUnlocked(a) then a
    else if Unlocks(a.id, subjects) then a.(unlockedAt := Some(now))
    else a
  }

  /** The `unlockedAny` flag: some locked entry's condition holds. */
  predicate AnyUnlocks(achievements: seq<Achievement>, subjects: seq<Subject>) {
    exists i :: 0 <= i < |achievements| && !IsUnlocked(achievements[i])
      && Unlocks(achievements[i].id, subjects)
  }

  /** `checkAchievements`: locked entries whose condition holds are stamped
      with `now`, everything else stays as it was, and experience grows by a
      flat 50 if anything unlocked in this pass; otherwise the state is
      returned unchanged. */
  function CheckAchievements(state: AppState, now: string): (r: AppState)
    ensures r.subjects == state.subjects && r.studyLog == state.studyLog
    ensures |r.achievements| == |state.achievements|
    ensures forall i :: 0 <= i < |r.achievements| && IsUnlocked(state.achievements[i]) ==>
      r.achievements[i] == state.achievements[i]
    ensures forall i :: 0 <= i < |r.achievements| && !IsUnlocked(state.achievements[i]) ==>
      r.achievements[i] == (if Unlocks(state.achievements[i].id, state.subjects)
                            then state.achievements[i].(unlockedAt := Some(now))
                            else state.achievements[i])
    ensures r.experience == state.experience
      + (if AnyUnlocks(state.achievements, state.subjects) then ACHIEVEMENT_XP else 0)
    ensures !AnyUnlocks(state.achievements, state.subjects) ==> r == state
  {
    var achs := state.achievements;
    if AnyUnlocks(achs, state.subjects) then
      state.(achievements := seq(|achs|, i requires 0 <= i < |achs| => EvaluateEntry(achs[i], state.subjects, now)),
             experience := state.experience + ACHIEVEMENT_XP)
    else
      assert seq(|achs|, i requires 0 <= i < |achs| => EvaluateEntry(achs[i], state.subjects, now)) == achs;
      state
  }

  /** With a non-empty stamp, an entry is unlocked after the pass exactly when
      it was unlocked before or its condition holds. */
  lemma CheckUnlockedIff(state: AppState, now: string)
    requires now != ""
    ensures var r := CheckAchievements(state, now);
      forall i :: 0 <= i < |state.achievements| ==>
        (IsUnlocked(r.achievements[i]) <==>
           IsUnlocked(state.achievements[i]) || Unlocks(state.achievements[i].id, state.subjects))
  {
  }

  /** A second pass, whatever its clock reading, unlocks nothing and pays
      nothing. */
  lemma CheckIdempotent(state: AppState, now: string, later: string)
    requires now != ""
    ensures CheckAchievements(CheckAchievements(state, now), later) == CheckAchievements(state, now)
  {
    CheckUnlockedIff(state, now);
  }

  /** The reward is per pass, not per achievement: however many entries
      unlock together, experience grows by exactly 50. */
  lemma FlatRewardPerPass(state: AppState, now: string, i: nat, j: nat)
    requires i < j < |state.achievements|
    requires !IsUnlocked(state.achievements[i]) && Unlocks(state.achievements[i].id, state.subjects)
    requires !IsUnlocked(state.achievements[j]) && Unlocks(state.achievements[j].id, state.subjects)
    ensures CheckAchievements(state, now).experience == state.experience + ACHIEVEMENT_XP
  {
  }

  /** `consistent_learner` has no condition in the evaluator and never unlocks. */
  lemma ConsistentLearnerNeverUnlocks(state: AppState, now: string, i: nat)
    requires i < |state.achievements|
    requires state.achievements[i].id == CONSISTENT_LEARNER
    ensures CheckAchievements(state, now).achievements[i] == state.achievements[i]
  {
  }

  /** With non-negative counts, `first_step` holds exactly when some chapter
      has been studied at least once. */
  lemma {:induction false} FirstStepIffStudied(subjects: seq<Subject>)
    requires forall i, j :: 0 <= i < |subjects| && 0 <= j < |subjects[i].chapters| ==>
      subjects[i].chapters[j].currentReps >= 0
    ensures TotalReps(subjects) >= 0
    ensures Unlocks(FIRST_STEP, subjects) <==> SomeChapterReaches(subjects, 1)
  {
    if |subjects| > 0 {
      var n := |subjects| - 1;
      var init := subjects[..n];
      assert forall i :: 0 <= i < n ==> init[i] == subjects[i];
      FirstStepIffStudied(init);
      ChapterRepsPositive(subjects[n].chapters);
      if SomeChapterReaches(subjects, 1) {
        var i, j :| 0 <= i < |subjects| && 0 <= j < |subjects[i].chapters|
          && subjects[i].chapters[j].currentReps >= 1;
        if i < n {
          assert init[i].chapters[j].currentReps >= 1;
        }
      }
      if SomeChapterReaches(init, 1) {
        var i, j :| 0 <= i < |init| && 0 <= j < |init[i].chapters|
          && init[i].chapters[j].currentReps >= 1;
        assert subjects[i].chapters[j].currentReps >= 1;
      }
    }
  }

  /** A chapter created from a negative target (the target field keeps
      negatives) is already past its target, so `overachiever` is reachable. */
  lemma OverachieverReachable(subject: Subject, name: string, chapterId: string)
    requires !SubjectDetails.IsBlank(name)
    ensures var target := SubjectDetails.TargetFromInput(Some(-1));
            var s := SubjectDetails.AddChapter(subject, name, target, chapterId).value;
            Unlocks(OVERACHIEVER, [s])
  {
    var target := SubjectDetails.TargetFromInput(Some(-1));
    var s := SubjectDetails.AddChapter(subject, name, target, chapterId).value;
    var n := |subject.chapters|;
    assert [s][0].chapters[n].currentReps > [s][0].chapters[n].targetReps;
  }

  /** One edit as the shell runs it: the reducer, then the evaluator on the
      state it produced (the evaluator's own update re-runs it, which
      `CheckIdempotent` shows to be a no-op). */
  function Step(state: AppState, updated: Subject, editTime: string, checkTime: string): (r: AppState)
    ensures r.experience >= state.experience
    ensures |state.studyLog| <= |r.studyLog| <= |state.studyLog| + 1
    ensures r.studyLog[..|state.studyLog|] == state.studyLog
    ensures |r.achievements| == |state.achievements|
    ensures forall i :: 0 <= i < |r.achievements| && IsUnlocked(state.achievements[i]) ==>
      r.achievements[i] == state.achievements[i]
  {
    CheckAchievements(UpdateSubject(state, updated, editTime), checkTime)
  }
}

=== FILE: constants.dfy ===
/**
  The fixed catalogs the initial state is built from: the twelve subjects of
  the course and the five achievement templates.
 */
module Constants {
  import opened Types

  /** A catalog subject before it owns any chapters, marks or exams. */
  datatype SubjectTemplate = SubjectTemplate(id: string, name: string, color: string)

  const INITIAL_SUBJECTS: seq<SubjectTemplate> := [
    SubjectTemplate("1", "Physical Optics", "bg-blue-500"),
    SubjectTemplate("2", "Basic Optometry", "bg-indigo-500"),
    SubjectTemplate("3", "Ophthalmic Dispensing", "bg-purple-500"),
    SubjectTemplate("4", "Systemic Conditions with Ocular Changes", "bg-red-500"),
    SubjectTemplate("5", "Contact Lenses", "bg-cyan-500"),
    SubjectTemplate("6", "Low Vision", "bg-teal-500"),
    SubjectTemplate("7", "Orthoptics", "bg-emerald-500"),
    SubjectTemplate("8", "Pathology", "bg-orange-500"),
    SubjectTemplate("9", "Microbiology and Parasitology", "bg-rose-500"),
    SubjectTemplate("10", "Pharmacology", "bg-amber-500"),
    SubjectTemplate("11", "Ethics", "bg-slate-500"),
    SubjectTemplate("12", "Ophthalmology", "bg-violet-500")
  ]

  const FIRST_STEP := "first_step"
  const REPETITION_KING := "repetition_king"
  const SUBJECT_MASTER := "subject_master"
  const OVERACHIEVER := "overachiever"
  const CONSISTENT_LEARNER := "consistent_learner"

  /** The templates carry no unlock stamp. */
  const ACHIEVEMENT_TEMPLATES: seq<Achievement> := [
    Achievement(FIRST_STEP, "First Step", "Complete your first study session", "\U{1F3AF}", None),
    Achievement(REPETITION_KING, "Repetition King", "Reach the maximum of 7 repetitions for any chapter", "\U{1F451}", None),
    Achievement(SUBJECT_MASTER, "Subject Master", "Complete all chapters in one subject", "\U{1F4DA}", None),
    Achievement(OVERACHIEVER, "Overachiever", "Exceed a target repetition goal", "\U{1F680}", None),
    Achievement(CONSISTENT_LEARNER, "Steady Scholar", "Study 5 days in a row", "\U{1F525}", None)
  ]

  /** The subject catalog has twelve entries whose ids are "1".."12" in
      order, so its ids are pairwise distinct. */
  lemma InitialSubjectsShape()
    ensures |INITIAL_SUBJECTS| == 12
    ensures forall i :: 0 <= i < 12 ==>
      INITIAL_SUBJECTS[i].id == ["1", "2", "3", "4", "5", "6", "7", "8", "9", "10", "11", "12"][i]
    ensures forall i, j :: 0 <= i < j < 12 ==> INITIAL_SUBJECTS[i].id != INITIAL_SUBJECTS[j].id
  {
  }

  /** Five templates with pairwise-distinct ids, none of them unlocked; the ids
      are the four the evaluator tests plus `consistent_learner`. */
  lemma AchievementTemplatesShape()
    ensures |ACHIEVEMENT_TEMPLATES| == 5
    ensures forall i, j :: 0 <= i < j < 5 ==> ACHIEVEMENT_TEMPLATES[i].id != ACHIEVEMENT_TEMPLATES[j].id
    ensures forall i :: 0 <= i < 5 ==> ACHIEVEMENT_TEMPLATES[i].unlockedAt.None?
    ensures forall i :: 0 <= i < 5 ==> !IsUnlocked(ACHIEVEMENT_TEMPLATES[i])
    ensures ACHIEVEMENT_TEMPLATES[0].id == FIRST_STEP
    ensures ACHIEVEMENT_TEMPLATES[1].id == REPETITION_KING
    ensures ACHIEVEMENT_TEMPLATES[2].id == SUBJECT_MASTER
    ensures ACHIEVEMENT_TEMPLATES[3].id == OVERACHIEVER
    ensures ACHIEVEMENT_TEMPLATES[4].id == CONSISTENT_LEARNER
  {
  }
}

=== FILE: dashboard.dfy ===
/**
  The figures the dashboard derives from the state: chapter, completion and
  repetition counts, the completion rate, the "focus required" list of the
  four least-advanced unfinished chapters, the level shown next to the
  experience, and each subject's mastery percentage.
 */
module Dashboard {
  import opened Types
  import opened Constants
  import App

  /** Experience per level. */
  const XP_PER_LEVEL := 1000
  /** Length of the "focus required" list. */
  const FOCUS_SIZE := 4

  /** `total > 0 ? (done / total) * 100 : 0`, shared by the overall completion
      rate and the per-subject mastery. */
  function Percent(done: nat, total: nat): (r: real)
    requires done <= total
    ensures total == 0 ==> r == 0.0
    ensures 0.0 <= r <= 100.0
    ensures r == 100.0 <==> total > 0 && done == total
    ensures r == 0.0 <==> total == 0 || done == 0
    ensures total > 0 ==> r == (done as real / total as real) * 100.0
  {
    if total > 0 then
      var q := done as real / total as real;
      assert q * total as real == done as real;
      q * 100.0
    else 0.0
  }

  /** The memoised `stats` of the dashboard. */
  datatype Stats = Stats(totalChapters: nat, completedChapters: nat, completionRate: real, totalReps: int)

  /** The nested `forEach` that fills `stats`: it agrees with the recursive
      tallies, done never exceeds total, and the rate is a percentage. */
  method ComputeStats(subjects: seq<Subject>) returns (st: Stats)
    ensures st.totalChapters == ChapterCount(subjects)
    ensures st.completedChapters == DoneTotal(subjects)
    ensures st.totalReps == TotalReps(subjects)
    ensures st.completedChapters <= st.totalChapters
    ensures st.totalChapters == 0 ==> st.completionRate == 0.0
    ensures st.totalChapters > 0 ==>
      st.completionRate == (st.completedChapters as real / st.totalChapters as real) * 100.0
    ensures 0.0 <= st.completionRate <= 100.0
  {
    var total: nat := 0;
    var done: nat := 0;
    var reps := 0;
    for i := 0 to |subjects|
      invariant total == ChapterCount(subjects[..i])
      invariant done == DoneTotal(subjects[..i])
      invariant reps == TotalReps(subjects[..i])
    {
      var cs := subjects[i].chapters;
      for j := 0 to |cs|
        invariant total == ChapterCount(subjects[..i]) + j
        invariant done == DoneTotal(subjects[..i]) + DoneCount(cs[..j])
        invariant reps == TotalReps(subjects[..i]) + ChapterReps(cs[..j])
      {
        assert cs[..j + 1][..j] == cs[..j];
        total := total + 1;
        reps := reps + cs[j].currentReps;
        if IsDone(cs[j]) {
          done := done + 1;
        }
      }
      assert cs[..|cs|] == cs;
      assert subjects[..i + 1][..i] == subjects[..i];
    }
    assert subjects[..|subjects|] == subjects;
    DoneTotalBounds(subjects);
    st := Stats(total, done, Percent(done, total), reps);
  }

  // ---- focus required ------------------------------------------------------

  /** One row of the "focus required" card. */
  datatype FocusItem = FocusItem(chapterName: string, subject: Subject, progress: real)

  /** `(currentReps / targetReps) * 100`; a zero target is read as 0. */
  function Progress(c: Chapter): real {
    if c.targetReps == 0 then 0.0 else (c.currentReps as real / c.targetReps as real) * 100.0
  }

  function Item(s: Subject, c: Chapter): FocusItem {
    FocusItem(c.name, s, Progress(c))
  }

  /** The unfinished chapters of `cs`, as rows for subject `s`, in order. */
  function Unfinished(s: Subject, cs: seq<Chapter>): (r: seq<FocusItem>)
    ensures forall x :: x in r <==> exists j :: 0 <= j < |cs| && !IsDone(cs[j]) && x == Item(s, cs[j])
    ensures |r| == |cs| - DoneCount(cs)
  {
    if |cs| == 0 then []
    else
      var n := |cs| - 1;
      assert forall j :: 0 <= j < n ==> cs[..n][j] == cs[j];
      Unfinished(s, cs[..n]) + (if IsDone(cs[n]) then [] else [Item(s, cs[n])])
  }

  /** The list built by the two nested `forEach` loops: one row per
      unfinished chapter, subjects and chapters in order. */
  function Candidates(subjects: seq<Subject>): (r: seq<FocusItem>)
    ensures forall x :: x in r <==>
      exists i, j :: 0 <= i < |subjects| && 0 <= j < |subjects[i].chapters|
        && !IsDone(subjects[i].chapters[j]) && x == Item(subjects[i], subjects[i].chapters[j])
    ensures |r| == ChapterCount(subjects) - DoneTotal(subjects)
  {
    if |subjects| == 0 then []
    else
      var n := |subjects| - 1;
      assert forall i :: 0 <= i < n ==> subjects[..n][i] == subjects[i];
      Candidates(subjects[..n]) + Unfinished(subjects[n], subjects[n].chapters)
  }

  /** The per-subject rows distribute over concatenation, so they follow the
      chapters one for one, in order. */
  lemma {:induction false} UnfinishedAppend(s: Subject, a: seq<Chapter>, b: seq<Chapter>)
    ensures Unfinished(s, a + b) == Unfinished(s, a) + Unfinished(s, b)
    decreases |b|
  {
    if |b| == 0 {
      assert a + b == a;
    } else {
      var b', last := b[..|b| - 1], b[|b| - 1];
      var row := if IsDone(last) then [] else [Item(s, last)];
      assert (a + b)[..|a + b| - 1] == a + b';
      assert (a + b)[|a + b| - 1] == last;
      UnfinishedAppend(s, a, b');
      assert Unfinished(s, a + b) == Unfinished(s, a + b') + row;
      assert Unfinished(s, b) == Unfinished(s, b') + row;
      assert (Unfinished(s, a) + Unfinished(s, b')) + row == Unfinished(s, a) + (Unfinished(s, b') + row);
    }
  }

  /** The candidate rows distribute over concatenation of the subjects. */
  lemma {:induction false} CandidatesAppend(a: seq<Subject>, b: seq<Subject>)
    ensures Candidates(a + b) == Candidates(a) + Candidates(b)
    decreases |b|
  {
    if |b| == 0 {
      assert a + b == a;
    } else {
      var b', last := b[..|b| - 1], b[|b| - 1];
      var rows := Unfinished(last, last.chapters);
      assert (a + b)[..|a + b| - 1] == a + b';
      assert (a + b)[|a + b| - 1] == last;
      CandidatesAppend(a, b');
      assert Candidates(a + b) == Candidates(a + b') + rows;
      assert Candidates(b) == Candidates(b') + rows;
      assert (Candidates(a) + Candidates(b')) + rows == Candidates(a) + (Candidates(b') + rows);
    }
  }

  predicate SortedByProgress(s: seq<FocusItem>) {
    forall i, j :: 0 <= i < j < |s| ==> s[i].progress <= s[j].progress
  }

  /** Inserts `x` before the first row that is not behind it. */
  function Insert(x: FocusItem, s: seq<FocusItem>): (r: seq<FocusItem>)
    requires SortedByProgress(s)
    ensures |r| == |s| + 1
    ensures forall k :: 0 <= k < |r| ==> r[k] == x || r[k] in s
    ensures SortedByProgress(r)
    ensures multiset(r) == multiset(s) + multiset{x}
  {
    if |s| == 0 then [x]
    else if x.progress <= s[0].progress then
      SortedCons(x, s);
      [x] + s
    else
      var rest := Insert(x, s[1..]);
      HeadBelow(x, s, rest);
      SortedCons(s[0], rest);
      assert s == [s[0]] + s[1..];
      [s[0]] + rest
  }

  /** A row no further than every row of a sorted list can go in front. */
  lemma SortedCons(a: FocusItem, s: seq<FocusItem>)
    requires SortedByProgress(s)
    requires forall k :: 0 <= k < |s| ==> a.progress <= s[k].progress
    ensures SortedByProgress([a] + s)
  {
    var r := [a] + s;
    forall i, j | 0 <= i < j < |r|
      ensures r[i].progress <= r[j].progress
    {
      assert r[j] == s[j - 1];
      if i > 0 {
        assert r[i] == s[i - 1];
      }
    }
  }

  /** The head of a sorted list is no further than anything drawn from its
      tail or a row ahead of it. */
  lemma HeadBelow(x: FocusItem, s: seq<FocusItem>, rest: seq<FocusItem>)
    requires SortedByProgress(s) && |s| > 0 && s[0].progress < x.progress
    requires forall k :: 0 <= k < |rest| ==> rest[k] == x || rest[k] in s[1..]
    ensures forall k :: 0 <= k < |rest| ==> s[0].progress <= rest[k].progress
  {
    forall k | 0 <= k < |rest|
      ensures s[0].progress <= rest[k].progress
    {
      if rest[k] != x {
        var m :| 0 <= m < |s| - 1 && s[1..][m] == rest[k];
        assert s[1..][m] == s[m + 1];
      }
    }
  }

  /** A stable sort ascending by progress, as the comparator
      `a.progress - b.progress` gives. */
  function SortByProgress(s: seq<FocusItem>): (r: seq<FocusItem>)
    ensures SortedByProgress(r)
    ensures multiset(r) == multiset(s)
  {
    if |s| == 0 then []
    else
      assert s == [s[0]] + s[1..];
      Insert(s[0], SortByProgress(s[1..]))
  }

  /** Cutting a sorted list leaves no dropped row behind a kept one. */
  lemma SortedCut(sorted: seq<FocusItem>, k: nat)
    requires SortedByProgress(sorted) && k <= |sorted|
    ensures multiset(sorted[..k]) <= multiset(sorted)
    ensures forall x, y :: x in sorted[..k] && y in multiset(sorted) - multiset(sorted[..k]) ==>
      x.progress <= y.progress
  {
    CutMultiset(sorted, k);
    forall x, y | x in sorted[..k] && y in sorted[k..]
      ensures x.progress <= y.progress
    {
      var a :| 0 <= a < k && sorted[..k][a] == x;
      var b :| 0 <= b < |sorted| - k && sorted[k..][b] == y;
      assert sorted[a] == x && sorted[k + b] == y;
    }
  }

  /** What a cut removes, as a multiset, is the part after it. */
  lemma CutMultiset(s: seq<FocusItem>, k: nat)
    requires k <= |s|
    ensures multiset(s[..k]) <= multiset(s)
    ensures multiset(s) - multiset(s[..k]) == multiset(s[k..])
  {
    assert s == s[..k] + s[k..];
    assert multiset(s) == multiset(s[..k]) + multiset(s[k..]);
  }

  /** The first `n` rows of the sorted list: the `n` rows (or all, if fewer)
      furthest behind, in ascending order. */
  function Lowest(rows: seq<FocusItem>, n: nat): (r: seq<FocusItem>)
    ensures |r| == if |rows| < n then |rows| else n
    ensures SortedByProgress(r)
    ensures multiset(r) <= multiset(rows)
    ensures forall x, y :: x in r && y in multiset(rows) - multiset(r) ==> x.progress <= y.progress
  {
    var sorted := SortByProgress(rows);
    var k := if |sorted| < n then |sorted| else n;
    SortedCut(sorted, k);
    sorted[..k]
  }

  /** `focusRequired`: at most four unfinished chapters, in ascending order of
      progress, drawn from the candidate rows, and none of the rows left out
      is strictly behind a row that was kept. */
  function FocusRequired(subjects: seq<Subject>): (r: seq<FocusItem>)
    ensures |r| == if |Candidates(subjects)| < FOCUS_SIZE then |Candidates(subjects)| else FOCUS_SIZE
    ensures SortedByProgress(r)
    ensures multiset(r) <= multiset(Candidates(subjects))
    ensures forall x, y :: x in r && y in multiset(Candidates(subjects)) - multiset(r) ==>
      x.progress <= y.progress
  {
    Lowest(Candidates(subjects), FOCUS_SIZE)
  }

  /** Every row of the list is an unfinished chapter of some subject. */
  lemma FocusOnlyUnfinished(subjects: seq<Subject>)
    ensures forall k :: 0 <= k < |FocusRequired(subjects)| ==>
      exists i, j :: 0 <= i < |subjects| && 0 <= j < |subjects[i].chapters|
        && subjects[i].chapters[j].currentReps < subjects[i].chapters[j].targetReps
        && FocusRequired(subjects)[k] == Item(subjects[i], subjects[i].chapters[j])
  {
    var r := FocusRequired(subjects);
    forall k | 0 <= k < |r|
      ensures r[k] in Candidates(subjects)
    {
      assert r[k] in multiset(r);
    }
  }

  // ---- level and mastery ---------------------------------------------------

  /** `Math.floor(experience / 1000) + 1`: the level whose thousand-point band
      contains the experience. */
  function Level(experience: int): (r: int)
    ensures (r - 1) * XP_PER_LEVEL <= experience < r * XP_PER_LEVEL
    ensures experience >= 0 ==> r >= 1
  {
    experience / XP_PER_LEVEL + 1
  }

  /** More experience never means a lower level. */
  lemma LevelMonotone(a: int, b: int)
    requires a <= b
    ensures Level(a) <= Level(b)
  {
  }

  /** The per-subject mastery bar: the percentage of done chapters, 0 for a
      subject without chapters, 100 exactly when every chapter is done. */
  function Mastery(s: Subject): (r: real)
    ensures |s.chapters| == 0 ==> r == 0.0
    ensures 0.0 <= r <= 100.0
    ensures r == 100.0 <==> |s.chapters| > 0 && forall j :: 0 <= j < |s.chapters| ==> IsDone(s.chapters[j])
    ensures r == 0.0 <==> forall j :: 0 <= j < |s.chapters| ==> !IsDone(s.chapters[j])
    ensures |s.chapters| > 0 ==>
      r == (DoneCount(s.chapters) as real / |s.chapters| as real) * 100.0
  {
    DoneCountBounds(s.chapters);
    Percent(DoneCount(s.chapters), |s.chapters|)
  }

  /** `subject_master` unlocks exactly when some subject's mastery bar is full. */
  lemma SubjectMasterIffFullMastery(subjects: seq<Subject>)
    ensures App.Unlocks(SUBJECT_MASTER, subjects) <==>
      exists i :: 0 <= i < |subjects| && Mastery(subjects[i]) == 100.0
  {
  }
}

=== FILE: progress_bar.dfy ===
/**
  The progress bar's arithmetic: the percentage it draws is clamped to
  [0, 100], and its size prop selects the bar height.
 */
module ProgressBar {
  import opened Types

  /** `Math.min(100, Math.max(0, progress))`. */
  function Clamp(progress: real): (r: real)
    ensures 0.0 <= r <= 100.0
    ensures 0.0 <= progress <= 100.0 ==> r == progress
    ensures progress < 0.0 ==> r == 0.0
    ensures progress > 100.0 ==> r == 100.0
  {
    var lower := if progress >= 0.0 then progress else 0.0;
    if lower <= 100.0 then lower else 100.0
  }

  /** Clamping twice is clamping once, and clamping keeps the order of its inputs. */
  lemma ClampIdempotentMonotone(p: real, q: real)
    ensures Clamp(Clamp(p)) == Clamp(p)
    ensures p <= q ==> Clamp(p) <= Clamp(q)
  {
  }

  /** The size prop; `None` is an omitted prop, whose default is "md". */
  function Height(size: Option<string>): (r: string)
    ensures size.None? ==> r == "h-2.5"
    ensures size == Some("sm") ==> r == "h-1.5"
    ensures size == Some("md") ==> r == "h-2.5"
    ensures size.Some? && size.value != "sm" && size.value != "md" ==> r == "h-4"
  {
    var s := match size case None => "md" case Some(v) => v;
    if s == "sm" then "h-1.5" else if s == "md" then "h-2.5" else "h-4"
  }

  /** Only three heights are ever drawn, and omitting the prop is the same as passing "md". */
  lemma HeightRange(size: Option<string>)
    ensures Height(size) in {"h-1.5", "h-2.5", "h-4"}
    ensures Height(None) == Height(Some("md"))
  {
  }
}

=== FILE: scenarios.dfy ===
/**
  End-to-end runs of the edit pipeline (`App.Step`: reducer, then
  evaluator) on concrete states.
 */
module Scenarios {
  import opened Types
  import opened Constants
  import App
  import SubjectDetails
  import Storage

  /** One press of "+" on chapter `chapterId` of the subject at `k`. */
  function Press(state: AppState, k: nat, chapterId: string, now: string): AppState
    requires k < |state.subjects|
  {
    App.Step(state, SubjectDetails.UpdateRep(state.subjects[k], chapterId, 1, now), now, now)
  }

  /** A chapter already at 7 repetitions goes to 8 on "+" (there is no
      ceiling) and `repetition_king` unlocks with the pass's flat 50. */
  lemma NoCeilingAtSeven(now: string)
    requires now != ""
    ensures var c := Chapter("c", "Refraction", 7, 7, None);
            var s := Subject("1", "Physical Optics", "bg-blue-500", [c], [], []);
            var king := Achievement(REPETITION_KING, "Repetition King", "", "", None);
            var state := AppState([s], [king], 0, []);
            var r := Press(state, 0, "c", now);
            && r.subjects[0].chapters[0].currentReps == 8
            && r.achievements[0].unlockedAt == Some(now)
            && r.experience == 10 + App.ACHIEVEMENT_XP
            && |r.studyLog| == 1
  {
    var c := Chapter("c", "Refraction", 7, 7, None);
    var s := Subject("1", "Physical Optics", "bg-blue-500", [c], [], []);
    var king := Achievement(REPETITION_KING, "Repetition King", "", "", None);
    var state := AppState([s], [king], 0, []);
    var u := SubjectDetails.UpdateRep(s, "c", 1, now);
    assert u.chapters[0].currentReps == 8;
    assert ChapterReps(u.chapters) == 8 && ChapterReps(s.chapters) == 7;
    var mid := App.UpdateSubject(state, u, now);
    assert mid.subjects == [u];
    assert App.Unlocks(REPETITION_KING, mid.subjects) by {
      assert mid.subjects[0].chapters[0].currentReps >= App.KING_REPS;
    }
  }

  /** Once `subject_master` is unlocked, adding an unfinished chapter to the
      mastered subject does not lock it again. */
  lemma MasteryIsNotRevoked(state: AppState, k: nat, i: nat, name: string, chapterId: string, now: string)
    requires k < |state.subjects| && i < |state.achievements|
    requires state.achievements[i].id == SUBJECT_MASTER && IsUnlocked(state.achievements[i])
    requires !SubjectDetails.IsBlank(name)
    ensures var added := SubjectDetails.AddChapter(state.subjects[k], name, 5, chapterId).value;
            App.Step(state, added, now, now).achievements[i] == state.achievements[i]
  {
  }

  // ---- the seed scenario ---------------------------------------------------

  /** The run's chapter. */
  const CHAPTER := "c1"
  const CHAPTER_NAME := "Geometrical Optics"
  const TARGET := 5

  lemma ChapterNameNotBlank()
    ensures !SubjectDetails.IsBlank(CHAPTER_NAME)
  {
    assert !SubjectDetails.IsJsWhitespace(CHAPTER_NAME[0]);
  }

  /** The shape of the state after `n` presses: the first subject holds the
      one chapter, at `n` repetitions against a target of 5; every other
      subject is empty and has a different id. */
  predicate Shape(state: AppState, n: nat) {
    && |state.subjects| >= 1
    && |state.subjects[0].chapters| == 1
    && state.subjects[0].chapters[0].id == CHAPTER
    && state.subjects[0].chapters[0].currentReps == n
    && state.subjects[0].chapters[0].targetReps == TARGET
    && forall i :: 1 <= i < |state.subjects| ==>
         state.subjects[i].chapters == [] && state.subjects[i].id != state.subjects[0].id
  }

  /** Repetitions at which each achievement's condition first holds in this
      run; `consistent_learner` (and any other id) has none. */
  function Threshold(id: string): Option<nat> {
    if id == FIRST_STEP then Some(1)
    else if id == REPETITION_KING then Some(App.KING_REPS)
    else if id == SUBJECT_MASTER then Some(TARGET)
    else if id == OVERACHIEVER then Some(TARGET + 1)
    else None
  }

  predicate Reached(id: string, n: nat) {
    Threshold(id).Some? && Threshold(id).value <= n
  }

  /** The achievements after `n` presses, from the locked list `base`, every
      unlock stamped `t`. */
  function Expected(base: seq<Achievement>, n: nat, t: string): seq<Achievement> {
    seq(|base|, i requires 0 <= i < |base| =>
      if Reached(base[i].id, n) then base[i].(unlockedAt := Some(t)) else base[i])
  }

  predicate AllLocked(base: seq<Achievement>) {
    forall i :: 0 <= i < |base| ==> !IsUnlocked(base[i])
  }

  lemma {:induction false} TotalRepsFirstOnly(subjects: seq<Subject>)
    requires |subjects| >= 1
    requires forall i :: 1 <= i < |subjects| ==> subjects[i].chapters == []
    ensures TotalReps(subjects) == SubjectReps(subjects[0])
  {
    if |subjects| > 1 {
      var init := subjects[..|subjects| - 1];
      assert forall i :: 1 <= i < |init| ==> init[i] == subjects[i];
      TotalRepsFirstOnly(init);
    }
  }

  /** In a state of this shape, each condition holds exactly once its
      threshold is reached. */
  lemma UnlocksInShape(state: AppState, n: nat, id: string)
    requires Shape(state, n)
    ensures App.Unlocks(id, state.subjects) <==> Reached(id, n)
  {
    var subjects := state.subjects;
    var c := subjects[0].chapters[0];
    TotalRepsFirstOnly(subjects);
    assert SubjectReps(subjects[0]) == n by {
      var cs := subjects[0].chapters;
      assert cs[..0] == [];
      assert ChapterReps(cs) == ChapterReps(cs[..0]) + cs[0].currentReps;
    }
    if App.SomeChapterReaches(subjects, App.KING_REPS) {
      var i, j :| 0 <= i < |subjects| && 0 <= j < |subjects[i].chapters|
        && subjects[i].chapters[j].currentReps >= App.KING_REPS;
      assert i == 0 && j == 0;
    }
    if App.SomeChapterExceeds(subjects) {
      var i, j :| 0 <= i < |subjects| && 0 <= j < |subjects[i].chapters|
        && subjects[i].chapters[j].currentReps > subjects[i].chapters[j].targetReps;
      assert i == 0 && j == 0;
    }
    if App.SomeSubjectMastered(subjects) {
      var i :| 0 <= i < |subjects| && |subjects[i].chapters| > 0
        && forall j :: 0 <= j < |subjects[i].chapters| ==> IsDone(subjects[i].chapters[j]);
      assert i == 0;
      assert IsDone(c);
    }
    if n >= TARGET {
      assert IsDone(c);
      assert forall j :: 0 <= j < |subjects[0].chapters| ==> IsDone(subjects[0].chapters[j]);
    }
  }

  /** The reducer's part of a press: one more repetition, 10 experience, one
      session; the achievements are not touched. */
  lemma PressReducer(state: AppState, n: nat, t: string)
    requires Shape(state, n)
    ensures var u := SubjectDetails.UpdateRep(state.subjects[0], CHAPTER, 1, t);
            var mid := App.UpdateSubject(state, u, t);
            && Shape(mid, n + 1)
            && mid.achievements == state.achievements
            && |mid.studyLog| == |state.studyLog| + 1
            && mid.experience == state.experience + App.XP_PER_REP
  {
    var s := state.subjects[0];
    var u := SubjectDetails.UpdateRep(s, CHAPTER, 1, t);
    assert u.chapters[0].currentReps == n + 1;
    assert ChapterReps(u.chapters) == n + 1 by {
      assert u.chapters[..0] == [];
    }
    assert ChapterReps(s.chapters) == n by {
      assert s.chapters[..0] == [];
    }
    assert App.FindIndex(state.subjects, u.id) == 0;
  }

  /** The evaluator's part of a press: the entries whose threshold is hit
      unlock, with one payment of 50 for the pass. */
  lemma PressEvaluator(mid: AppState, base: seq<Achievement>, n: nat, t: string)
    requires t != "" && AllLocked(base)
    requires Shape(mid, n + 1) && mid.achievements == Expected(base, n, t)
    ensures var r := App.CheckAchievements(mid, t);
            && r.subjects == mid.subjects && r.studyLog == mid.studyLog
            && r.achievements == Expected(base, n + 1, t)
            && r.experience == mid.experience
                 + (if HitAt(base, n + 1) then App.ACHIEVEMENT_XP else 0)
  {
    var r := App.CheckAchievements(mid, t);
    forall i | 0 <= i < |base|
      ensures r.achievements[i] == Expected(base, n + 1, t)[i]
      ensures !IsUnlocked(mid.achievements[i]) && App.Unlocks(mid.achievements[i].id, mid.subjects)
              <==> Threshold(base[i].id) == Some(n + 1)
    {
      UnlocksInShape(mid, n + 1, base[i].id);
    }
  }

  /** One press in the run. */
  lemma PressStep(state: AppState, base: seq<Achievement>, n: nat, t: string)
    requires t != "" && AllLocked(base)
    requires Shape(state, n) && state.achievements == Expected(base, n, t)
    ensures var r := Press(state, 0, CHAPTER, t);
            && Shape(r, n + 1)
            && r.achievements == Expected(base, n + 1, t)
            && |r.studyLog| == |state.studyLog| + 1
            && r.experience == state.experience + App.XP_PER_REP
                 + (if HitAt(base, n + 1) then App.ACHIEVEMENT_XP else 0)
  {
    PressReducer(state, n, t);
    var u := SubjectDetails.UpdateRep(state.subjects[0], CHAPTER, 1, t);
    PressEvaluator(App.UpdateSubject(state, u, t), base, n, t);
  }

  /** `n` applications of `f`. */
  function Iterate(state: AppState, n: nat, f: AppState -> AppState): AppState
    decreases n
  {
    if n == 0 then state else Iterate(f(state), n - 1, f)
  }

  /** "+" on the run's chapter, when there is a first subject. */
  function PressFirst(state: AppState, t: string): AppState {
    if |state.subjects| > 0 then Press(state, 0, CHAPTER, t) else state
  }

  /** The press as a step function. */
  function PressFn(t: string): AppState -> AppState {
    s => PressFirst(s, t)
  }

  /** `n` presses of "+" on the run's chapter. */
  function Presses(state: AppState, n: nat, t: string): AppState {
    Iterate(state, n, PressFn(t))
  }

  /** Press `n` reaches the threshold of some entry of `base`. */
  predicate HitAt(base: seq<Achievement>, n: nat) {
    exists i :: 0 <= i < |base| && Threshold(base[i].id) == Some(n)
  }

  /** How many of the presses k+1..k+n reach the threshold of some entry
      of `base`. */
  function Hits(base: seq<Achievement>, k: nat, n: nat): nat
    decreases n
  {
    if n == 0 then 0
    else (if HitAt(base, k + 1) then 1 else 0) + Hits(base, k + 1, n - 1)
  }

  /** What one press does to a state of the run after `m` presses. */
  predicate Advances(s: AppState, r: AppState, base: seq<Achievement>, m: nat, t: string) {
    && Shape(r, m + 1)
    && r.achievements == Expected(base, m + 1, t)
    && |r.studyLog| == |s.studyLog| + 1
    && r.experience == s.experience + App.XP_PER_REP + (if HitAt(base, m + 1) then App.ACHIEVEMENT_XP else 0)
  }

  /** A step that advances every state of the run, iterated `n` times from
      `k` presses, gives `k + n` repetitions, `n` more sessions, and 10
      experience per step plus 50 per step that reached a threshold. */
  lemma {:induction false} IterateRun(state: AppState, base: seq<Achievement>, k: nat, n: nat, t: string,
                                      f: AppState -> AppState)
    requires forall s: AppState, m: nat {:trigger Advances(s, f(s), base, m, t)} ::
      Shape(s, m) && s.achievements == Expected(base, m, t) ==> Advances(s, f(s), base, m, t)
    requires Shape(state, k) && state.achievements == Expected(base, k, t)
    decreases n
    ensures Shape(Iterate(state, n, f), k + n)
    ensures Iterate(state, n, f).achievements == Expected(base, k + n, t)
    ensures |Iterate(state, n, f).studyLog| == |state.studyLog| + n
    ensures Iterate(state, n, f).experience
      == state.experience + 10 * n + 50 * Hits(base, k, n)
  {
    if n > 0 {
      assert Advances(state, f(state), base, k, t);
      IterateRun(f(state), base, k + 1, n - 1, t, f);
    }
  }

  /** Every press advances the run. */
  lemma PressAdvances(base: seq<Achievement>, t: string)
    requires t != "" && AllLocked(base)
    ensures forall s: AppState, m: nat {:trigger Advances(s, PressFn(t)(s), base, m, t)} ::
      Shape(s, m) && s.achievements == Expected(base, m, t) ==> Advances(s, PressFn(t)(s), base, m, t)
  {
    forall s: AppState, m: nat | Shape(s, m) && s.achievements == Expected(base, m, t)
      ensures Advances(s, PressFn(t)(s), base, m, t)
    {
      PressStep(s, base, m, t);
    }
  }

  /** What the run needs of its starting state; the seed has it
      (`Storage.SeedWellFormed`). */
  predicate Fresh(s0: AppState) {
    && |s0.subjects| >= 1
    && (forall i :: 0 <= i < |s0.subjects| ==> s0.subjects[i].chapters == [])
    && (forall i :: 1 <= i < |s0.subjects| ==> s0.subjects[i].id != s0.subjects[0].id)
    && AllLocked(s0.achievements)
    && s0.experience == 0 && s0.studyLog == []
  }

  lemma NothingAtZero(id: string)
    ensures !Reached(id, 0)
  {
  }

  /** Nothing has reached its threshold before the first press. */
  lemma ExpectedAtZero(base: seq<Achievement>, t: string)
    ensures Expected(base, 0, t) == base
  {
    forall i | 0 <= i < |base|
      ensures Expected(base, 0, t)[i] == base[i]
    {
      var id := base[i].id;
      assert Threshold(id).None? || Threshold(id).value >= 1;
    }
  }

  /** The subject after adding the chapter: the one chapter, at zero. */
  lemma AddedAtZero(s0: AppState)
    requires Fresh(s0)
    ensures var added := SubjectDetails.AddChapter(s0.subjects[0], CHAPTER_NAME, TARGET, CHAPTER).value;
            && added.id == s0.subjects[0].id
            && |added.chapters| == 1
            && added.chapters[0] == Chapter(CHAPTER, CHAPTER_NAME, 0, TARGET, None)
            && SubjectReps(added) == 0
  {
    ChapterNameNotBlank();
    SubjectDetails.AddChapterKeepsReps(s0.subjects[0], CHAPTER_NAME, TARGET, CHAPTER);
  }

  /** Storing a first subject that holds the chapter at zero earns nothing and
      logs nothing. */
  lemma StoreFirstAtZero(s0: AppState, added: Subject, t: string)
    requires Fresh(s0)
    requires added.id == s0.subjects[0].id && |added.chapters| == 1
    requires added.chapters[0].id == CHAPTER && added.chapters[0].currentReps == 0
    requires added.chapters[0].targetReps == TARGET && SubjectReps(added) == 0
    ensures var mid := App.UpdateSubject(s0, added, t);
            && Shape(mid, 0) && mid.achievements == s0.achievements
            && mid.experience == 0 && mid.studyLog == []
  {
    assert App.FindIndex(s0.subjects, added.id) == 0;
    assert App.OldReps(s0.subjects, added.id) == 0;
    var mid := App.UpdateSubject(s0, added, t);
    assert mid.subjects[0] == added;
    assert forall i :: 1 <= i < |mid.subjects| ==> mid.subjects[i] == s0.subjects[i];
  }

  /** The reducer's part of adding the chapter: the first subject now has
      it at zero repetitions, and nothing is earned or logged. */
  lemma AddChapterReducer(s0: AppState, t: string)
    requires Fresh(s0)
    ensures var added := SubjectDetails.AddChapter(s0.subjects[0], CHAPTER_NAME, TARGET, CHAPTER).value;
            var mid := App.UpdateSubject(s0, added, t);
            && Shape(mid, 0) && mid.achievements == s0.achievements
            && mid.experience == 0 && mid.studyLog == []
  {
    AddedAtZero(s0);
    ChapterNameNotBlank();
    StoreFirstAtZero(s0, SubjectDetails.AddChapter(s0.subjects[0], CHAPTER_NAME, TARGET, CHAPTER).value, t);
  }

  /** Before the first press no condition holds, so the evaluator leaves the
      state as it is. */
  lemma QuietAtZero(mid: AppState, t: string)
    requires Shape(mid, 0)
    ensures App.CheckAchievements(mid, t) == mid
  {
    forall i | 0 <= i < |mid.achievements|
      ensures !App.Unlocks(mid.achievements[i].id, mid.subjects)
    {
      UnlocksInShape(mid, 0, mid.achievements[i].id);
      NothingAtZero(mid.achievements[i].id);
    }
    assert !App.AnyUnlocks(mid.achievements, mid.subjects);
  }

  /** The run's first step: adding the chapter to the first subject earns
      nothing and unlocks nothing. */
  lemma AddChapterStep(s0: AppState, t: string)
    requires Fresh(s0)
    ensures var added := SubjectDetails.AddChapter(s0.subjects[0], CHAPTER_NAME, TARGET, CHAPTER).value;
            var s1 := App.Step(s0, added, t, t);
            && Shape(s1, 0) && s1.achievements == Expected(s0.achievements, 0, t)
            && s1.experience == 0 && s1.studyLog == []
  {
    ChapterNameNotBlank();
    var added := SubjectDetails.AddChapter(s0.subjects[0], CHAPTER_NAME, TARGET, CHAPTER).value;
    AddChapterReducer(s0, t);
    QuietAtZero(App.UpdateSubject(s0, added, t), t);
    ExpectedAtZero(s0.achievements, t);
  }

  /** `n` presses from the chapter at zero. */
  lemma PressesFromZero(s1: AppState, base: seq<Achievement>, t: string, n: nat)
    requires t != "" && AllLocked(base)
    requires Shape(s1, 0) && s1.achievements == Expected(base, 0, t)
    ensures var r := Presses(s1, n, t);
            && Shape(r, n)
            && |r.studyLog| == |s1.studyLog| + n
            && r.experience == s1.experience + 10 * n + 50 * Hits(base, 0, n)
            && r.achievements == Expected(base, n, t)
  {
    PressAdvances(base, t);
    IterateRun(s1, base, 0, n, t, PressFn(t));
  }

  /** Add "Geometrical Optics" (target 5) to the first subject, then press
      "+" `n` times: `n` repetitions, `n` sessions, and experience of 10 per
      press plus 50 for each press that reached a threshold. */
  lemma RepetitionRun(s0: AppState, t: string, n: nat)
    requires t != "" && Fresh(s0)
    ensures var added := SubjectDetails.AddChapter(s0.subjects[0], CHAPTER_NAME, TARGET, CHAPTER).value;
            var r := Presses(App.Step(s0, added, t, t), n, t);
            && Shape(r, n)
            && |r.studyLog| == n
            && r.experience == 10 * n + 50 * Hits(s0.achievements, 0, n)
            && r.achievements == Expected(s0.achievements, n, t)
  {
    ChapterNameNotBlank();
    var added := SubjectDetails.AddChapter(s0.subjects[0], CHAPTER_NAME, TARGET, CHAPTER).value;
    AddChapterStep(s0, t);
    PressesFromZero(App.Step(s0, added, t, t), s0.achievements, t, n);
  }

  /** With the five templates, presses 1 and 5 reach a threshold
      (`first_step` and `subject_master`); 6 and 7 would reach
      `overachiever` and `repetition_king`. */
  lemma TemplateHits()
    ensures Hits(ACHIEVEMENT_TEMPLATES, 0, 5) == 2
  {
    var ts := ACHIEVEMENT_TEMPLATES;
    AchievementTemplatesShape();
    assert HitAt(ts, 1) by {
      assert Threshold(ts[0].id) == Some(1);
    }
    assert HitAt(ts, 5) by {
      assert Threshold(ts[2].id) == Some(5);
    }
    forall k | 2 <= k <= 4
      ensures !HitAt(ts, k)
    {
      forall i | 0 <= i < |ts|
        ensures Threshold(ts[i].id) != Some(k)
      {
        assert i == 0 || i == 1 || i == 2 || i == 3 || i == 4;
      }
    }
  }

  /** The same run from the seed state: five sessions and 150 experience
      (50 from repetitions, 50 each for `first_step` and `subject_master`). */
  lemma SeedFiveRepetitions(t: string)
    requires t != ""
    ensures var s0 := Storage.SeedState();
            var added := SubjectDetails.AddChapter(s0.subjects[0], CHAPTER_NAME, TARGET, CHAPTER).value;
            var s6 := Presses(App.Step(s0, added, t, t), 5, t);
            && |s6.studyLog| == 5
            && s6.experience == 150
  {
    Storage.SeedWellFormed();
    RepetitionRun(Storage.SeedState(), t, 5);
    TemplateHits();
  }
}

=== FILE: storage.dfy ===
/**
  Loading the state: the seed built from the catalogs, and the defaulting
  applied to a stored state that parses. Reading the browser store and
  parsing JSON are outside the model: the stored text is an `Option<string>`
  and the parser is a parameter that answers `None` on failure.
 */
module Storage {
  import opened Types
  import opened Constants
  import App

  /** What a successful parse yields: the typed fields, where an older save
      may lack the study log. */
  datatype StoredState = StoredState(
    subjects: seq<Subject>,
    achievements: seq<Achievement>,
    experience: int,
    studyLog: Option<seq<StudySession>>)

  /** A catalog entry as a subject with nothing in it yet. */
  function SeedSubject(t: SubjectTemplate): Subject {
    Subject(t.id, t.name, t.color, [], [], [])
  }

  /** The fallback state: the catalog subjects in order and empty, the
      achievement templates as they are, no experience and no log. */
  function SeedState(): (r: AppState)
    ensures |r.subjects| == |INITIAL_SUBJECTS|
    ensures forall i :: 0 <= i < |r.subjects| ==>
      && r.subjects[i].id == INITIAL_SUBJECTS[i].id
      && r.subjects[i].name == INITIAL_SUBJECTS[i].name
      && r.subjects[i].color == INITIAL_SUBJECTS[i].color
    ensures forall i :: 0 <= i < |r.subjects| ==>
      r.subjects[i].chapters == [] && r.subjects[i].assessments == [] && r.subjects[i].exams == []
    ensures r.achievements == ACHIEVEMENT_TEMPLATES
    ensures r.experience == 0 && r.studyLog == []
  {
    AppState(
      seq(|INITIAL_SUBJECTS|, i requires 0 <= i < |INITIAL_SUBJECTS| => SeedSubject(INITIAL_SUBJECTS[i])),
      ACHIEVEMENT_TEMPLATES,
      0,
      [])
  }

  /** `loadState`: stored text that is missing or empty, or that does not
      parse, gives the seed; a parsed state is kept field for field, with a
      missing study log read as empty. */
  function LoadState(stored: Option<string>, parse: string -> Option<StoredState>): (r: AppState)
    ensures !Truthy(stored) ==> r == SeedState()
    ensures Truthy(stored) && parse(stored.value).None? ==> r == SeedState()
    ensures Truthy(stored) && parse(stored.value).Some? ==>
      var p := parse(stored.value).value;
      && r.subjects == p.subjects
      && r.achievements == p.achievements
      && r.experience == p.experience
      && (p.studyLog.Some? ==> r.studyLog == p.studyLog.value)
      && (p.studyLog.None? ==> r.studyLog == [])
  {
    if Truthy(stored) then
      match parse(stored.value)
      case Some(p) =>
        AppState(p.subjects, p.achievements, p.experience,
                 match p.studyLog case Some(log) => log case None => [])
      case None => SeedState()
    else SeedState()
  }

  /** The object `saveState` serialises. */
  function ToStored(state: AppState): StoredState {
    StoredState(state.subjects, state.achievements, state.experience, Some(state.studyLog))
  }

  /** Loading what was saved gives back the state, provided the parser reads
      the saved text back to the saved object. */
  lemma LoadAfterSave(state: AppState, text: string, parse: string -> Option<StoredState>)
    requires text != ""
    requires parse(text) == Some(ToStored(state))
    ensures LoadState(Some(text), parse) == state
  {
  }

  /** A save from before the study log existed loads with an empty log. */
  lemma LoadLegacySave(state: AppState, text: string, parse: string -> Option<StoredState>)
    requires text != ""
    requires parse(text) == Some(StoredState(state.subjects, state.achievements, state.experience, None))
    ensures LoadState(Some(text), parse) == state.(studyLog := [])
  {
  }

  /** The seed's subject ids are pairwise distinct and every achievement
      starts locked. */
  lemma SeedWellFormed()
    ensures forall i, j :: 0 <= i < j < |SeedState().subjects| ==>
      SeedState().subjects[i].id != SeedState().subjects[j].id
    ensures forall i :: 0 <= i < |SeedState().achievements| ==> !IsUnlocked(SeedState().achievements[i])
  {
    InitialSubjectsShape();
    AchievementTemplatesShape();
  }

  /** No condition holds in the seed, so the first evaluator pass after
      loading it changes nothing. */
  lemma SeedIsQuiescent(now: string)
    ensures App.CheckAchievements(SeedState(), now) == SeedState()
  {
    var s := SeedState();
    AchievementTemplatesShape();
    assert TotalReps(s.subjects) == 0 by {
      SeedRepsZero(s.subjects);
    }
    assert !App.AnyUnlocks(s.achievements, s.subjects);
  }

  lemma {:induction false} SeedRepsZero(subjects: seq<Subject>)
    requires forall i :: 0 <= i < |subjects| ==> subjects[i].chapters == []
    ensures TotalReps(subjects) == 0
  {
    if |subjects| > 0 {
      SeedRepsZero(subjects[..|subjects| - 1]);
    }
  }
}

=== FILE: subject_details.dfy ===
/**
  The subject editor's primitives. Each builds the replacement subject that
  the editor hands to the state reducer (`App.UpdateSubject`), or reports
  that no update is issued. Generated ids, the clock and parsed numbers are
  parameters.
 */
module SubjectDetails {
  import opened Types

  /** Target repetitions shown in the add-chapter form before any input. */
  const DEFAULT_TARGET := 5

  /** The characters `String.prototype.trim` strips: the ECMAScript
      WhiteSpace and LineTerminator code points. */
  predicate IsJsWhitespace(c: char) {
    || c == ' ' || c == '\t' || c == '\n' || c == '\r'
    || c == '\U{B}' || c == '\U{C}' || c == '\U{A0}' || c == '\U{FEFF}'
    || c == '\U{1680}' || ('\U{2000}' <= c <= '\U{200A}')
    || c == '\U{2028}' || c == '\U{2029}' || c == '\U{202F}' || c == '\U{205F}'
    || c == '\U{3000}'
  }

  /** A string that consists of whitespace only (the empty string included). */
  predicate IsBlank(s: string) {
    forall i :: 0 <= i < |s| ==> IsJsWhitespace(s[i])
  }

  function TrimStart(s: string): (r: string)
    ensures r == "" || !IsJsWhitespace(r[0])
    ensures |r| <= |s| && r == s[|s| - |r|..]
  {
    if |s| > 0 && IsJsWhitespace(s[0]) then TrimStart(s[1..]) else s
  }

  function TrimEnd(s: string): (r: string)
    ensures r == "" || !IsJsWhitespace(r[|r| - 1])
    ensures |r| <= |s| && r == s[..|r|]
  {
    if |s| > 0 && IsJsWhitespace(s[|s| - 1]) then TrimEnd(s[..|s| - 1]) else s
  }

  /** `String.prototype.trim`. */
  function Trim(s: string): string {
    TrimEnd(TrimStart(s))
  }

  /** Only whitespace is stripped from the front. */
  lemma {:induction false} TrimStartEmptyIffBlank(s: string)
    ensures TrimStart(s) == "" <==> IsBlank(s)
    decreases |s|
  {
    if |s| > 0 && IsJsWhitespace(s[0]) {
      TrimStartEmptyIffBlank(s[1..]);
      assert forall i :: 1 <= i < |s| ==> s[i] == s[1..][i - 1];
    }
  }

  /** Trimming empties a string exactly when it is all whitespace: this is the
      test `!newName.trim()`. */
  lemma TrimEmptyIffBlank(s: string)
    ensures Trim(s) == "" <==> IsBlank(s)
  {
    TrimStartEmptyIffBlank(s);
    var t := TrimStart(s);
    // TrimEnd keeps a prefix of t and strips only whitespace, so it cannot
    // strip t's first character.
    TrimEndBlankSuffix(t);
    assert t[0..] == t;
  }

  /** What TrimStart strips is whitespace. */
  lemma {:induction false} TrimStartBlankPrefix(s: string)
    ensures IsBlank(s[..|s| - |TrimStart(s)|])
    decreases |s|
  {
    if |s| > 0 && IsJsWhitespace(s[0]) {
      var s' := s[1..];
      TrimStartBlankPrefix(s');
      var k := |s'| - |TrimStart(s)|;
      assert s[..k + 1] == [s[0]] + s'[..k];
    }
  }

  /** What TrimEnd strips is whitespace. */
  lemma {:induction false} TrimEndBlankSuffix(s: string)
    ensures IsBlank(s[|TrimEnd(s)|..])
    decreases |s|
  {
    if |s| > 0 && IsJsWhitespace(s[|s| - 1]) {
      var s' := s[..|s| - 1];
      TrimEndBlankSuffix(s');
      var k := |TrimEnd(s)|;
      assert s[k..] == s'[k..] + [s[|s| - 1]];
    }
  }

  /** The add-chapter button: a blank name issues no update; otherwise one
      chapter with no repetitions is appended after the existing ones. */
  function AddChapter(subject: Subject, newName: string, newTarget: int, newId: string): (r: Option<Subject>)
    ensures r.None? <==> IsBlank(newName)
    ensures r.Some? ==>
      && r.value.(chapters := subject.chapters) == subject
      && |r.value.chapters| == |subject.chapters| + 1
      && r.value.chapters[..|subject.chapters|] == subject.chapters
      && r.value.chapters[|subject.chapters|] == Chapter(newId, newName, 0, newTarget, None)
  {
    TrimEmptyIffBlank(newName);
    if Trim(newName) == "" then None
    else Some(subject.(chapters := subject.chapters + [Chapter(newId, newName, 0, newTarget, None)]))
  }

  /** Adding a chapter adds no repetitions. */
  lemma AddChapterKeepsReps(subject: Subject, newName: string, newTarget: int, newId: string)
    requires !IsBlank(newName)
    ensures SubjectReps(AddChapter(subject, newName, newTarget, newId).value) == SubjectReps(subject)
  {
    var r := AddChapter(subject, newName, newTarget, newId).value;
    assert r.chapters == subject.chapters + [Chapter(newId, newName, 0, newTarget, None)];
    ChapterRepsAppend(subject.chapters, [Chapter(newId, newName, 0, newTarget, None)]);
    assert ChapterReps([Chapter(newId, newName, 0, newTarget, None)]) == 0;
  }

  /** The per-chapter step of `updateRep`. */
  function BumpRep(c: Chapter, chapterId: string, delta: int, now: string): Chapter {
    if c.id == chapterId
    then c.(currentReps := Max(0, c.currentReps + delta), lastStudied := Some(now))
    else c
  }

  /** The +/- buttons: every chapter with the given id gets
      `max(0, currentReps + delta)` repetitions and is stamped with `now`;
      there is no upper ceiling. */
  function UpdateRep(subject: Subject, chapterId: string, delta: int, now: string): (r: Subject)
    ensures r.(chapters := subject.chapters) == subject
    ensures |r.chapters| == |subject.chapters|
    ensures forall i :: 0 <= i < |r.chapters| ==>
      && r.chapters[i].id == subject.chapters[i].id
      && r.chapters[i].name == subject.chapters[i].name
      && r.chapters[i].targetReps == subject.chapters[i].targetReps
    ensures forall i :: 0 <= i < |r.chapters| && subject.chapters[i].id != chapterId ==>
      r.chapters[i] == subject.chapters[i]
    ensures forall i :: 0 <= i < |r.chapters| && subject.chapters[i].id == chapterId ==>
      && r.chapters[i].currentReps >= 0
      && r.chapters[i].currentReps >= subject.chapters[i].currentReps + delta
      && (r.chapters[i].currentReps == 0 || r.chapters[i].currentReps == subject.chapters[i].currentReps + delta)
      && r.chapters[i].lastStudied == Some(now)
  {
    var cs := subject.chapters;
    subject.(chapters := seq(|cs|, i requires 0 <= i < |cs| => BumpRep(cs[i], chapterId, delta, now)))
  }

  /** If every chapter with the given id gains `k` repetitions and the others
      keep theirs, the sum gains `k` times the number of such chapters. */
  lemma {:induction false} ChapterRepsShift(a: seq<Chapter>, b: seq<Chapter>, id: string, k: int)
    requires |a| == |b|
    requires forall i :: 0 <= i < |a| ==>
      b[i].currentReps == a[i].currentReps + (if a[i].id == id then k else 0)
    ensures ChapterReps(b) == ChapterReps(a) + k * CountId(a, id)
  {
    if |a| > 0 {
      var n := |a| - 1;
      var a', b' := a[..n], b[..n];
      forall i | 0 <= i < n
        ensures b'[i].currentReps == a'[i].currentReps + (if a'[i].id == id then k else 0)
      {
        assert a'[i] == a[i] && b'[i] == b[i];
      }
      ChapterRepsShift(a', b', id, k);
      var c := CountId(a', id);
      assert ChapterReps(b) == ChapterReps(b') + b[n].currentReps;
      assert ChapterReps(a) == ChapterReps(a') + a[n].currentReps;
      if a[n].id == id {
        assert CountId(a, id) == c + 1;
        assert k * (c + 1) == k * c + k;
      } else {
        assert CountId(a, id) == c;
      }
    }
  }

  /** With non-negative counts, a non-negative delta raises the subject's
      repetitions by delta for each chapter carrying the id. */
  lemma UpdateRepRaisesTotal(subject: Subject, chapterId: string, delta: int, now: string)
    requires delta >= 0
    requires forall i :: 0 <= i < |subject.chapters| ==> subject.chapters[i].currentReps >= 0
    ensures SubjectReps(UpdateRep(subject, chapterId, delta, now))
         == SubjectReps(subject) + delta * CountId(subject.chapters, chapterId)
  {
    var r := UpdateRep(subject, chapterId, delta, now);
    ChapterRepsShift(subject.chapters, r.chapters, chapterId, delta);
  }

  /** A chapter whose id occurs once: "+" adds exactly one repetition. */
  lemma IncrementAddsOne(subject: Subject, chapterId: string, now: string)
    requires CountId(subject.chapters, chapterId) == 1
    requires forall i :: 0 <= i < |subject.chapters| ==> subject.chapters[i].currentReps >= 0
    ensures SubjectReps(UpdateRep(subject, chapterId, 1, now)) == SubjectReps(subject) + 1
  {
    UpdateRepRaisesTotal(subject, chapterId, 1, now);
  }

  /** "-" on chapters already at zero leaves the total unchanged. */
  lemma DecrementAtZero(subject: Subject, chapterId: string, delta: int, now: string)
    requires delta <= 0
    requires forall i :: 0 <= i < |subject.chapters| && subject.chapters[i].id == chapterId ==>
      subject.chapters[i].currentReps == 0
    ensures SubjectReps(UpdateRep(subject, chapterId, delta, now)) == SubjectReps(subject)
  {
    var r := UpdateRep(subject, chapterId, delta, now);
    ChapterRepsShift(subject.chapters, r.chapters, chapterId, 0);
  }

  /** An id no chapter carries changes nothing. */
  lemma UpdateRepUnknownId(subject: Subject, chapterId: string, delta: int, now: string)
    requires forall i :: 0 <= i < |subject.chapters| ==> subject.chapters[i].id != chapterId
    ensures UpdateRep(subject, chapterId, delta, now) == subject
  {
    var r := UpdateRep(subject, chapterId, delta, now);
    assert r.chapters == subject.chapters;
  }

  /** Chapters of `cs` whose id differs from `id`, in their original order. */
  function Without(cs: seq<Chapter>, id: string): (r: seq<Chapter>)
    ensures forall c :: c in r <==> c in cs && c.id != id
    ensures |r| + CountId(cs, id) == |cs|
  {
    if |cs| == 0 then []
    else
      var last := cs[|cs| - 1];
      var init := cs[..|cs| - 1];
      assert cs == init + [last];
      Without(init, id) + (if last.id == id then [] else [last])
  }

  /** Removal works piecewise, so the survivors keep their relative order. */
  lemma {:induction false} WithoutAppend(a: seq<Chapter>, b: seq<Chapter>, id: string)
    ensures Without(a + b, id) == Without(a, id) + Without(b, id)
    decreases |b|
  {
    if |b| == 0 {
      assert a + b == a;
    } else {
      var b', last := b[..|b| - 1], b[|b| - 1];
      var kept := if last.id == id then [] else [last];
      assert (a + b)[..|a + b| - 1] == a + b';
      assert (a + b)[|a + b| - 1] == last;
      WithoutAppend(a, b', id);
      assert Without(a + b, id) == Without(a + b', id) + kept;
      assert Without(b, id) == Without(b', id) + kept;
      assert (Without(a, id) + Without(b', id)) + kept == Without(a, id) + (Without(b', id) + kept);
    }
  }

  /** The delete button: every chapter with the id goes, the rest stay in order. */
  function DeleteChapter(subject: Subject, chapterId: string): (r: Subject)
    ensures r.(chapters := subject.chapters) == subject
    ensures forall c :: c in r.chapters <==> c in subject.chapters && c.id != chapterId
    ensures |r.chapters| == |subject.chapters| - CountId(subject.chapters, chapterId)
  {
    subject.(chapters := Without(subject.chapters, chapterId))
  }

  /** Deleting an id that no chapter carries changes nothing. */
  lemma DeleteAbsentId(subject: Subject, chapterId: string)
    requires forall i :: 0 <= i < |subject.chapters| ==> subject.chapters[i].id != chapterId
    ensures DeleteChapter(subject, chapterId) == subject
  {
    WithoutNoMatch(subject.chapters, chapterId);
  }

  /** With non-negative counts, deleting never adds repetitions. */
  lemma {:induction false} WithoutRepsAtMost(cs: seq<Chapter>, id: string)
    requires forall i :: 0 <= i < |cs| ==> cs[i].currentReps >= 0
    ensures ChapterReps(Without(cs, id)) <= ChapterReps(cs)
  {
    if |cs| > 0 {
      var init, last := cs[..|cs| - 1], cs[|cs| - 1];
      WithoutRepsAtMost(init, id);
      var w := Without(init, id);
      assert ChapterReps(cs) == ChapterReps(init) + last.currentReps;
      if last.id != id {
        assert Without(cs, id) == w + [last];
        assert (w + [last])[..|w|] == w;
      } else {
        assert Without(cs, id) == w + [];
        assert w + [] == w;
      }
    }
  }

  lemma {:induction false} WithoutNoMatch(cs: seq<Chapter>, id: string)
    requires forall i :: 0 <= i < |cs| ==> cs[i].id != id
    ensures Without(cs, id) == cs
  {
    if |cs| > 0 {
      var init := cs[..|cs| - 1];
      WithoutNoMatch(init, id);
      assert cs == init + [cs[|cs| - 1]];
    }
  }

  /** The add-mark button. The three prompt answers must all be non-empty
      (`None` is a cancelled prompt); the numbers are already parsed. */
  function AddAssessment(
    subject: Subject, markStr: Option<string>, maxStr: Option<string>, nameStr: Option<string>,
    mark: real, maxMark: real, newId: string): (r: Option<Subject>)
    ensures r.Some? <==> Truthy(markStr) && Truthy(maxStr) && Truthy(nameStr)
    ensures r.Some? ==>
      && r.value.(assessments := subject.assessments) == subject
      && |r.value.assessments| == |subject.assessments| + 1
      && r.value.assessments[..|subject.assessments|] == subject.assessments
      && r.value.assessments[|subject.assessments|] == Assessment(newId, nameStr.value, mark, maxMark)
  {
    if Truthy(markStr) && Truthy(maxStr) && Truthy(nameStr) then
      Some(subject.(assessments := subject.assessments + [Assessment(newId, nameStr.value, mark, maxMark)]))
    else None
  }

  /** The schedule-exam button: title and date must be non-empty; an empty or
      cancelled goal becomes "A". */
  function AddExam(subject: Subject, name: Option<string>, date: Option<string>, goal: Option<string>,
                   newId: string): (r: Option<Subject>)
    ensures r.Some? <==> Truthy(name) && Truthy(date)
    ensures r.Some? ==>
      && r.value.(exams := subject.exams) == subject
      && |r.value.exams| == |subject.exams| + 1
      && r.value.exams[..|subject.exams|] == subject.exams
      && var e := r.value.exams[|subject.exams|];
         && e.id == newId && e.name == name.value && e.date == date.value
         && (Truthy(goal) ==> e.goal == goal.value)
         && (!Truthy(goal) ==> e.goal == "A")
  {
    if Truthy(name) && Truthy(date) then
      var g := if Truthy(goal) then goal.value else "A";
      Some(subject.(exams := subject.exams + [Exam(newId, name.value, date.value, g)]))
    else None
  }

  /** The target field: `parseInt(value) || 5`. `None` is a NaN parse. Zero
      and NaN fall back to 5; every other integer, negatives included, is kept. */
  function TargetFromInput(parsed: Option<int>): (r: int)
    ensures r != 0
    ensures parsed.Some? && parsed.value != 0 ==> r == parsed.value
    ensures parsed.None? || parsed.value == 0 ==> r == DEFAULT_TARGET
  {
    match parsed
    case None => DEFAULT_TARGET
    case Some(n) => if n == 0 then DEFAULT_TARGET else n
  }
}

=== FILE: types.dfy ===
/**
  The value shapes of the study tracker (chapters, assessments, exams,
  subjects, achievements, study sessions and the root state), together with
  the tallies over them that several views share: repetition sums, chapter
  counts and completion counts.
 */
module Types {

  /** An optional value, for the optional fields of the records and for
      inputs that may be missing (a cancelled prompt, a failed parse). */
  datatype Option<+T> = None | Some(value: T)

  /** JavaScript truthiness of an optional string: present and non-empty. */
  predicate Truthy(s: Option<string>) {
    s.Some? && s.value != ""
  }

  /** A chapter of a subject: repetitions done against a repetition target. */
  datatype Chapter = Chapter(
    id: string,
    name: string,
    currentReps: int,
    targetReps: int,
    lastStudied: Option<string>)

  /** A continuous-assessment mark. */
  datatype Assessment = Assessment(id: string, name: string, mark: real, maxMark: real)

  /** A scheduled exam; the date and the grade goal are free text. */
  datatype Exam = Exam(id: string, name: string, date: string, goal: string)

  /** A subject owns three ordered sequences of children. */
  datatype Subject = Subject(
    id: string,
    name: string,
    color: string,
    chapters: seq<Chapter>,
    assessments: seq<Assessment>,
    exams: seq<Exam>)

  /** An achievement; it counts as unlocked once it carries a timestamp. */
  datatype Achievement = Achievement(
    id: string,
    title: string,
    description: string,
    icon: string,
    unlockedAt: Option<string>)

  /** One entry of the study log. */
  datatype StudySession = StudySession(timestamp: string, subjectId: string, subjectName: string)

  /** The root aggregate. The cosmetic theme flag is not part of it. */
  datatype AppState = AppState(
    subjects: seq<Subject>,
    achievements: seq<Achievement>,
    experience: int,
    studyLog: seq<StudySession>)

  /** The application tests `if (ach.unlockedAt)`, so an empty stamp reads as locked. */
  predicate IsUnlocked(a: Achievement) {
    Truthy(a.unlockedAt)
  }

  /** A chapter is done (mastered) once its repetitions reach the target. */
  predicate IsDone(c: Chapter) {
    c.currentReps >= c.targetReps
  }

  function Max(a: int, b: int): int {
    if a >= b then a else b
  }

  /** Sum of `currentReps` over a chapter list. */
  function ChapterReps(cs: seq<Chapter>): int {
    if |cs| == 0 then 0 else ChapterReps(cs[..|cs| - 1]) + cs[|cs| - 1].currentReps
  }

  /** Repetitions of one subject. */
  function SubjectReps(s: Subject): int {
    ChapterReps(s.chapters)
  }

  /** Repetitions over all chapters of all subjects. */
  function TotalReps(subjects: seq<Subject>): int {
    if |subjects| == 0 then 0
    else TotalReps(subjects[..|subjects| - 1]) + SubjectReps(subjects[|subjects| - 1])
  }

  /** Number of done chapters in a chapter list. */
  function DoneCount(cs: seq<Chapter>): nat {
    if |cs| == 0 then 0
    else DoneCount(cs[..|cs| - 1]) + (if IsDone(cs[|cs| - 1]) then 1 else 0)
  }

  /** Number of chapters over all subjects. */
  function ChapterCount(subjects: seq<Subject>): nat {
    if |subjects| == 0 then 0
    else ChapterCount(subjects[..|subjects| - 1]) + |subjects[|subjects| - 1].chapters|
  }

  /** Number of done chapters over all subjects. */
  function DoneTotal(subjects: seq<Subject>): nat {
    if |subjects| == 0 then 0
    else DoneTotal(subjects[..|subjects| - 1]) + DoneCount(subjects[|subjects| - 1].chapters)
  }

  /** Number of chapters carrying the given id. */
  function CountId(cs: seq<Chapter>, id: string): nat {
    if |cs| == 0 then 0
    else CountId(cs[..|cs| - 1], id) + (if cs[|cs| - 1].id == id then 1 else 0)
  }

  /** Repetition sums distribute over concatenation. */
  lemma {:induction false} ChapterRepsAppend(a: seq<Chapter>, b: seq<Chapter>)
    ensures ChapterReps(a + b) == ChapterReps(a) + ChapterReps(b)
    decreases |b|
  {
    if |b| == 0 {
      assert a + b == a;
    } else {
      var b' := b[..|b| - 1];
      assert (a + b)[..|a + b| - 1] == a + b';
      ChapterRepsAppend(a, b');
    }
  }

  /** With no negative counts, the repetition sum is positive exactly when
      some chapter has been studied at least once. */
  lemma {:induction false} ChapterRepsPositive(cs: seq<Chapter>)
    requires forall i :: 0 <= i < |cs| ==> cs[i].currentReps >= 0
    ensures ChapterReps(cs) >= 0
    ensures ChapterReps(cs) >= 1 <==> exists i :: 0 <= i < |cs| && cs[i].currentReps >= 1
  {
    if |cs| > 0 {
      var init := cs[..|cs| - 1];
      ChapterRepsPositive(init);
      if exists i :: 0 <= i < |init| && init[i].currentReps >= 1 {
        var i :| 0 <= i < |init| && init[i].currentReps >= 1;
        assert cs[i] == init[i];
      }
      if exists i :: 0 <= i < |cs| && cs[i].currentReps >= 1 {
        var i :| 0 <= i < |cs| && cs[i].currentReps >= 1;
        if i < |init| {
          assert init[i] == cs[i];
        }
      }
    }
  }

  /** The completion count never exceeds the chapter count; it equals it
      exactly when every chapter is done, and is zero exactly when none is. */
  lemma {:induction false} DoneCountBounds(cs: seq<Chapter>)
    ensures DoneCount(cs) <= |cs|
    ensures DoneCount(cs) == |cs| <==> forall i :: 0 <= i < |cs| ==> IsDone(cs[i])
    ensures DoneCount(cs) == 0 <==> forall i :: 0 <= i < |cs| ==> !IsDone(cs[i])
  {
    if |cs| > 0 {
      var init := cs[..|cs| - 1];
      DoneCountBounds(init);
      assert forall i :: 0 <= i < |init| ==> init[i] == cs[i];
    }
  }

  /** Over all subjects, done chapters never exceed chapters. */
  lemma {:induction false} DoneTotalBounds(subjects: seq<Subject>)
    ensures DoneTotal(subjects) <= ChapterCount(subjects)
  {
    if |subjects| > 0 {
      DoneTotalBounds(subjects[..|subjects| - 1]);
      DoneCountBounds(subjects[|subjects| - 1].chapters);
    }
  }
}
